=== FILE: README.md ===
# Tesla battery logger: a Dafny model

This project models the decision logic of a small state-of-charge logger for
a Tesla vehicle and of its two offline tools.

- **The logger** (`index.mjs`) runs once per scheduled tick. It:
  - checks its settings;
  - obtains a valid OAuth access token, refreshing it with a 60-second safety
    margin;
  - best-effort registers the partner domain;
  - resolves the vehicle id from `TESLA_VEHICLE_TAG`;
  - reads the vehicle.

  If that read fails, it decides whether to wake the car. It stays quiet in
  the `QUIET_WINDOW`, respects `WAKE_POLICY`, and keeps to the per-day wake
  budget `MAX_WAKE_PER_DAY`, which it holds in a `{date, count}` counter
  file. After a wake it polls the car, bumps the counter and reads again.
  Each successful read appends one normalised entry to the log.
- **The analyser** (`analyze.mjs`) works on the whole log:
  - it loads the log as JSON lines, skipping blank lines, malformed lines,
    error entries and entries without a numeric `soc_percent`, and sorts the
    rest by timestamp;
  - it restricts the readings to the last `DAYS_REPORT` days, falling back to
    the whole history when fewer than two readings remain;
  - it forms one interval per pair of consecutive readings;
  - it sets aside intervals that have bad timestamps or are on charge;
  - it credits each remaining interval's drop to the local day of its
    midpoint;
  - it reports per-day drop, first/last and min/max state of charge.
- **The pruning tool** (`tools/prune_log.mjs`) rewrites the log, keeping only
  the lines whose timestamp lies within the last N days.

Everything the original does through the outside world is an explicit input:
- clocks (`now` in epoch ms, the local minute of the day, today's date);
- the token and counter files;
- every network answer, as oracle sequences. A read past the end of an
  oracle is the HTTP client's timeout error.

`JSON.parse`, `new Date(ts)` and the local calendar are functions passed in.
`process.exit` and thrown errors become an `Outcome` value.

Modules:
- `Wrappers`: `Option` and `Result`.
- `Text`: `trim`, ASCII case mapping, `includes`, `/^\d+$/`, `parseInt`,
  split/join.
- `Seqs`: order-preserving filter.
- `QuietWindow`.
- `WakeCounter`.
- `Tokens`.
- `Vehicle`: `isNumeric`, `resolveVehicleId`.
- `Wake`: the "asleep" classification and `wakeVehicle`.
- `PollRun`: `main` of the logger.
- `SocLog`: `loadPoints`.
- `Analyze`: `analyze` and the report window.
- `Prune`.

Behaviour of the code worth knowing:
- **When the counter is bumped.** The wake counter is bumped after
  `wakeVehicle` returns. If the polling ends in an error, nothing is
  counted.
- **No separate timeout outcome.** When all six polled reads are "asleep",
  one final read is made. Its error, whatever it is, ends the run as a failure.
- **Any failed first read leads to the wake decision.** Only the quiet-window
  skip looks at whether the error text means "asleep".
- **Two reads after a wake.** The value returned by `wakeVehicle` is
  discarded, and `main` reads the vehicle once more.
- **"always" is "onfail".** A wake is only ever considered after a failed
  read.
- **Only successful reads are logged.** Skips and failures end the process
  without a log entry, and the run-state file is never used.

## Model

| member | source | states |
|---|---|---|
| QuietWindow.Parse | index.mjs:59-65 | a setting parses exactly when, once trimmed, it is `DD:DD-DD:DD`; each end is 60 times the decimal value of its hour field plus that of its minute field, between 0 and 99*60+99 because fields are not range-checked |
| QuietWindow.MinutesOfDay | index.mjs:66-68 | the minute of the day lies in [0, 1440) and gives back the hours and minutes it was built from |
| QuietWindow.MalformedNeverQuiet | index.mjs:69-71 | a setting that does not parse fails open: no time of day is quiet |
| QuietWindow.QuietIsArc | index.mjs:69-79 | for a setting that reads as a window of the dial, `inQuietWindow` is the clockwise arc from its start up to its end |
| QuietWindow.QuietEdges | index.mjs:69-79 | the end minute of a parsed window is never quiet; its start is quiet exactly when the window is not empty |
| QuietWindow.InWindowIsArc | index.mjs:73-78 | the two-branch check equals an independent definition: the clockwise arc from `start` up to but excluding `end` on the 24-hour dial |
| QuietWindow.SwapIsComplement | index.mjs:73-78 | swapping the ends of a non-empty window gives exactly the complementary times |
| QuietWindow.ParseFormat | index.mjs:59-65 | every window of the dial, written `HH:MM-HH:MM` and padded with any white space, parses back to itself |
| QuietWindow.FormatParse | index.mjs:59-65 | a parsed setting with hours below 24 and minutes below 60 is a window of the dial, and its text is the trimmed setting |
| QuietWindow.DefaultWindow | index.mjs:23 | the default `00:00-07:30` is quiet from 00:00 up to 07:29 and not at 07:30 |
| QuietWindow.MidnightWindow | index.mjs:76-77 | `22:00-06:00` wraps midnight: quiet at 23:00 and 05:59, not at 06:00 or 12:00 |
| QuietWindow.UncheckedFields | index.mjs:61-64 | `22:00-30:00` is accepted and ends at minute 1800, past the end of the day: quiet at 23:00, not at 12:00 |
| Text.TrimInfix | index.mjs:61 | `trim` removes white space from the two ends only; the result is the infix between them |
| Text.TrimPadding | index.mjs:61 | trimming white-space padding around a core that starts and ends with non-space gives the core |
| Text.TrimIdempotent | index.mjs:61 | trimming twice is trimming once |
| Text.ParseIntOfDigits | index.mjs:270 | `parseInt` of a string starting with digits is the value of exactly those digits ("16 wakes" is 16) |
| Text.ParseIntNoDigits | index.mjs:270 | a string without digits parses to NaN, which the fallback turns into 0 |
| Text.JoinSplit | tools/prune_log.mjs:13 | splitting on line feeds and joining again gives the text back |
| Text.SplitJoinLines | tools/prune_log.mjs:23 | lines without line feeds, joined and terminated by a line feed, split back into themselves plus the empty tail |
| WakeCounter.GetWakeState | index.mjs:82-90 | the counter is dated today; its count is 0 when the stored date is not today (or the file is missing), otherwise the stored count |
| WakeCounter.FileAfterLoad | index.mjs:85-88 | a stale file is rewritten as `{today, 0}`; a current one is left untouched |
| WakeCounter.IncWake | index.mjs:91-96 | the written record is dated today and counts one more than today's count |
| WakeCounter.LoadIdempotent | index.mjs:82-90 | loading again after a load sees the same counter and writes nothing |
| WakeCounter.IncAfterLoad | index.mjs:91-96 | the budget check's load followed by `incWake` (which loads again) equals `incWake` alone |
| WakeCounter.NewDayResets | index.mjs:85-86 | a counter from another day, however high, restarts at 0; the first wake of the day counts 1 |
| WakeCounter.WakesAddUp | index.mjs:91-96 | `n` wakes on one day raise today's count by exactly `n` |
| Tokens.GetTokens | index.mjs:99-105 | the file is accepted exactly when it exists and has a refresh token; otherwise the missing-refresh-token error |
| Tokens.Lifetime | index.mjs:126 | the provider's lifetime unless it is zero or not a number, then 3600 s |
| Tokens.Refreshed | index.mjs:125-129 | the saved record holds the new access token, the rotated refresh token or else the old one, and an expiry 60 s before the provider's |
| Tokens.RefreshAccessToken | index.mjs:110-132 | a missing credential fails before the grant; a failed grant is an error and is not retried; otherwise the refreshed record |
| Tokens.GetValidAccessToken | index.mjs:133-139 | a grant is issued exactly when the token is missing, has no expiry or has expired; an error occurs exactly when the credential is missing or a needed grant fails |
| Tokens.StaysExpired | index.mjs:135 | once a credential needs refreshing it keeps needing it as time passes |
| Tokens.RefreshedValidity | index.mjs:126 | a refreshed token needs refreshing again exactly from the margin before the provider's expiry on |
| Tokens.NoSecondRefresh | index.mjs:133-139 | right after a successful call, a second call issues no grant and yields the same token |
| Vehicle.FindFrom | index.mjs:190-193 | `find`: the first entry passing the test, none earlier; `None` only when none passes |
| Vehicle.KnownVins | index.mjs:195 | the listed VINs are exactly the non-empty VINs of the entries |
| Vehicle.KnownVinsAppend | index.mjs:195 | the VINs keep the entries' order: those of two lists joined are those of the first, then those of the second |
| Vehicle.NumericPadded | index.mjs:57 | a run of digits padded with white space is a numeric tag |
| Vehicle.NumericCharacters | index.mjs:57 | a numeric tag holds at least one digit and nothing but digits and white space |
| Vehicle.FirstMatch | index.mjs:190-193 | the first entry matching the tag by upper-cased VIN or by trimmed id, and no earlier one |
| Vehicle.Resolve | index.mjs:179-199 | a numeric tag is used without a list request; a failed or empty list and an unmatched tag are the three errors; otherwise the first match's id |
| Vehicle.ResolvePicksFirst | index.mjs:190-198 | for a non-numeric tag and a non-empty list, success holds exactly when some entry matches, and the id is that of the first match |
| Wake.UnavailableIgnoresCase | index.mjs:221-222 | the "asleep" classification ignores letter case |
| Wake.UnavailableQuoted | index.mjs:221-222 | a message that contains an "asleep" error text, whatever surrounds it, is classified as asleep |
| Wake.Poll | index.mjs:215-231 | the polling loop makes between one and seven reads; all but the last were "asleep"; a polled read stops the loop only by succeeding or by another error |
| Wake.WakeVehicle | index.mjs:207-232 | a failed wake request is only a warning; the result is the last read made, every earlier read was "asleep", and at most seven reads are made |
| Wake.FirstAwakeReadWins | index.mjs:215-229 | the first read within the seven that is not "asleep" ends the series and is its result |
| Wake.AsleepThroughout | index.mjs:229-231 | after six "asleep" polled reads, the one-shot seventh read is made and its outcome is the result |
| Wake.AwakeAfterAsleep | index.mjs:215-229 | `k` "asleep" answers and then a reading: `k+1` reads, and that reading is the result |
| Wake.AsleepSeries | index.mjs:215-231 | seven "asleep" answers: all seven reads are made and the last error is the result |
| Wake.PostNeverAborts | index.mjs:208-213 | the wake request's answer never changes the reads made or their result |
| PollRun.LookupVehicle | index.mjs:254-267 | one retry, with one more list request, exactly when the first resolution's error asks for registration; a numeric tag makes no request |
| PollRun.Prepare | index.mjs:241-267 | a missing setting fails first, naming the first one missing; then a credential failure is the run's failure; otherwise the vehicle id, or the error, is the lookup's. One refresh grant exactly when the settings are present and the token needs it; the token file changes only through a refresh; nothing is requested when a setting or the token is missing; otherwise the list is read as often as the lookup reads it (none for a numeric tag, a second time only on the registration retry) and registration, when `AUTO_PARTNER_REGISTER` is "true" and a partner domain is set, is posted once before the lookup and once more before the retry |
| PollRun.GatesOf | index.mjs:269-271 | quiet is the quiet-window check; a wake may be considered exactly outside the quiet window under "onfail" or "always"; the budget is `MAX_WAKE_PER_DAY` read by `parseInt`, 0 when not a number |
| PollRun.EntryNormalised | index.mjs:314-334 | the entry is charging exactly when the charging state reads "charging" in any letter case; the online state falls back to the vehicle state and is empty only when both are; the state of charge is missing exactly when the reading is; it says "wake" exactly after a wake |
| PollRun.Decide | index.mjs:269-311 | after the vehicle id is known: at most one wake request and at most nine data reads |
| PollRun.RunOnce | index.mjs:241-338 | a failed setup ends the run with its failure, with no read, no wake and the counter untouched; otherwise the decision's outcome |
| PollRun.FirstReadSucceeds | index.mjs:276-334 | a successful first read is logged with `awake_via: none`; no wake, counter untouched, one read |
| PollRun.QuietSkipsWake | index.mjs:282-290 | in the quiet window an "asleep" failure exits without waking; the exit code is 0 exactly when EXIT_ZERO_ON_QUIET is "true" |
| PollRun.BudgetSkipsWake | index.mjs:292-299 | with today's count at the budget, the run exits 0 without waking; today's count is unchanged |
| PollRun.PolicyForbidsWake | index.mjs:293-311 | a failed read that is not quiet-skipped ends in the "policy forbids a wake" error, with exit code 1, when the policy is "never" or unknown or the window is quiet |
| PollRun.WakeCycle | index.mjs:300-307 | when window, policy and budget allow, one wake is made; if `wakeVehicle` returns, the count rises by exactly one however many polls it took, and the entry comes from the re-read with `awake_via: wake`; if it throws, nothing is counted |
| PollRun.WakeCycleBy | index.mjs:300-307 | the same cycle stated on the opened gates |
| PollRun.CounterDiscipline | index.mjs:292-307 | per run today's count stays or rises by one, only through an allowed wake below the budget; an entry says "wake" exactly when the count rose |
| PollRun.AlwaysIsOnFail | index.mjs:293 | the policy "always" decides exactly as "onfail" |
| PollRun.DailyBudgetHolds | index.mjs:292-304 | over any sequence of runs on one day, the count grows by the counted wakes and never passes MAX_WAKE_PER_DAY; none are counted once the budget is reached |
| PollRun.AsleepTextIsUnavailable | index.mjs:222 | "vehicle unavailable" is classified as asleep |
| PollRun.QuotaScenario | index.mjs:292-299 | budget 2, two wakes made today, the car asleep: the run exits 0 without a wake and the counter stays at 2 |
| PollRun.AwakeOnFourthScenario | index.mjs:300-307 | asleep, then asleep three more times, then awake: four polled reads, the entry from the re-read marked "wake", the count up by one |
| PollRun.AsleepThroughoutScenario | index.mjs:215-231 | asleep on every read: seven post-wake reads, the run fails with the last error, nothing is counted |
| SocLog.LinesAreTrimmed | analyze.mjs:20-21 | each line is the trimmed piece between line feeds, without a line feed and with no space at its ends |
| SocLog.LinesAppend | analyze.mjs:20 | the lines of two texts joined by a line feed are the lines of each, in order |
| SocLog.PointOf | analyze.mjs:21-26 | a line yields a reading exactly when it is non-blank, parses, has no error and has a numeric `soc_percent`; the reading carries the line's fields |
| Seqs.Somes | analyze.mjs:20-28 | the readings kept are the present ones, each value occurring as often as it is present |
| SocLog.Candidates | analyze.mjs:20-28 | one candidate per line, in file order |
| SocLog.ReadingOrigin | analyze.mjs:20-28 | a point is a reading exactly when some line of the file yields it |
| SocLog.SortByTime | analyze.mjs:30 | sorting is a permutation |
| SocLog.SortIsChronological | analyze.mjs:30 | with every timestamp valid, the sorted readings are in time order |
| SocLog.SortKeepsOrder | analyze.mjs:30 | readings already in time order are left as they are |
| SocLog.Sorted | analyze.mjs:30 | the same readings, chronological whenever every timestamp is valid |
| SocLog.LoadText | analyze.mjs:19-31 | loading fails exactly when fewer than two readings survive; otherwise exactly those readings, chronological when timed |
| SocLog.LoadPoints | analyze.mjs:16-32 | a missing or empty file is "file not found"; any other file loads as above |
| SocLog.FilterChronological | analyze.mjs:413 | keeping the readings that pass a test keeps time order |
| Analyze.Midpoint | analyze.mjs:93 | the halfway instant lies within the interval and is within one ms of the exact half |
| Analyze.SocDrop | analyze.mjs:92 | the drop is the fall in state of charge, never negative |
| Analyze.Classify | analyze.mjs:76-98 | an interval is a bad-timestamp exclusion exactly when time does not move forward; it is a charging exclusion exactly when it moves forward with either end charging; otherwise it is used, credited to the day of its midpoint, with its duration and drop |
| Analyze.Intervals | analyze.mjs:75-99 | one interval per pair of consecutive readings |
| Analyze.IntervalsPartition | analyze.mjs:75-99 | every pair lands in exactly one of the used and excluded lists |
| Analyze.AddDay | analyze.mjs:131 | adding a key to the day list adds exactly that key |
| Analyze.AddDayAscending | analyze.mjs:131 | adding a key keeps the list ascending and free of repeats |
| Analyze.DayList | analyze.mjs:131 | the day list holds exactly the given keys |
| Analyze.DayListAscending | analyze.mjs:131 | the day list is ascending without repeats |
| Analyze.MinSoc | analyze.mjs:111 | the minimum is at most every reading and attained by one |
| Analyze.MaxSoc | analyze.mjs:112 | the maximum is at least every reading and attained by one |
| Analyze.PointsOn | analyze.mjs:104-109 | a day's readings are exactly the readings filed under it, in time order when timed |
| Analyze.StatsOf | analyze.mjs:108-128 | a day's drop is the sum of its credited drops; its reading figures are present exactly when it has readings; first and last come from its time-ordered readings; min and max bound them all |
| Analyze.DayHasFigures | analyze.mjs:108-125 | a day has reading figures exactly when some reading falls on it |
| Analyze.DayRange | analyze.mjs:111-112 | the day's min and max bound every reading of the day and are both attained |
| Analyze.DayEnds | analyze.mjs:109-110 | with valid timestamps, the day's first and last figures come from its earliest and latest readings |
| Analyze.DayKeys | analyze.mjs:104-125 | the keys of `byDay` are the days of the readings and of the used intervals |
| Analyze.Days | analyze.mjs:131 | the day list is ascending, without repeats, and holds exactly those keys |
| Analyze.AnalyzePoints | analyze.mjs:71-159 | the used and excluded lists are the classified intervals of the readings filtered by kind, in order, losing none; the days are exact and sorted; there is one row per day; the raw series repeat the readings |
| Analyze.ShareOnce | analyze.mjs:124-126 | over a repeat-free day list, an interval's drop is credited once if its day is listed, and not at all otherwise |
| Analyze.DropsConserved | analyze.mjs:124-126 | summed over the days, the daily drops equal the total drop of the used intervals |
| Analyze.DailyDropsAddUp | analyze.mjs:124-141 | the `dailyDrop` series adds up to the drop of all used intervals |
| Analyze.ReportDays | analyze.mjs:6 | an unset `DAYS_REPORT` means 14; a set one is read as `parseInt` reads it, NaN included |
| Analyze.ReportCutoff | analyze.mjs:412 | the cutoff lies exactly `DAYS_REPORT` days before now, and is NaN when that setting is |
| Analyze.Window | analyze.mjs:413-414 | with at least two recent readings the result is exactly the recent ones, in order and with their repeats; otherwise the whole history; never fewer than two; time order kept |
| Analyze.Report | analyze.mjs:406-416 | the report fails exactly when loading does, with the same error; otherwise the whole analysis, daily figures and series alike, is of the readings of the last `DAYS_REPORT` days when there are at least two, else of the whole history, so at least two readings and at most all those loaded |
| Analyze.ReportAllRecent | analyze.mjs:411-416 | when every loaded reading is within the last `DAYS_REPORT` days, the report is the analysis of the whole history |
| Prune.Cutoff | tools/prune_log.mjs:4-5 | the cutoff is N days before now, with N = 30 when not given, and NaN when the argument is not a number |
| Prune.Kept | tools/prune_log.mjs:13-22 | a line survives exactly when it is non-blank, parses, has a valid timestamp and is not before the cutoff |
| Prune.KeptAreLines | tools/prune_log.mjs:13-20 | every survivor is a single, trimmed, non-blank line |
| Prune.Render | tools/prune_log.mjs:23 | the output is empty exactly when nothing survives, and otherwise ends with a line feed |
| Prune.PruneLog | tools/prune_log.mjs:8-23 | an unreadable file is left alone; otherwise the output's lines are exactly the survivors, in order, then the empty tail |
| Prune.OrderKept | tools/prune_log.mjs:13-22 | the survivors of two parts of a file are those of the first followed by those of the second |
| Prune.RenderedLines | tools/prune_log.mjs:23 | reading the written file back gives the survivors and then the empty tail |
| Prune.KeptOfRender | tools/prune_log.mjs:13-23 | pruning the written survivors again keeps all of them |
| Prune.PruneIdempotent | tools/prune_log.mjs:8-23 | pruning twice with the same cutoff is pruning once |
| Prune.NaNCutoffEmptiesLog | tools/prune_log.mjs:4-20 | a non-numeric retention argument empties the log |

## Left out

- **Numbers.** State of charge, drops and durations are integers (the API
  reports `battery_level` as a whole percentage). So `toFixed` rounding, the `hours`
  field as a real and floating-point sums are not modelled; an interval
  carries its duration in milliseconds.
- **Odometer.** The odometer field of the log entry (`index.mjs:322`, `330`)
  is floating-point and is not modelled.
- **Output only.** `resampleHourly`, the CSV and HTML writers of
  `analyze.mjs`, and all console output only format results, so they are not
  modelled.
- **The outside world.**
  - File reads and writes, the environment and `dotenv`, the HTTP client and
    the ten-second sleeps are not modelled.
  - Their effects are inputs and outputs: files as `Option` values, network
    answers as oracle sequences.
  - The request bodies (the token grant's form fields, the API base chosen by
    region) are not modelled.
  - `readJSON` of a file that is not JSON counts as a missing file.
- **Parsing.**
  - JSON parsing, `new Date(ts)`, `toISOString` and the local calendar are
    function parameters.
  - `Number(battery_level)` is given as an already-decoded `Option<int>`.
- **Case mapping.** `toLowerCase` and `toUpperCase` are modelled on the ASCII
  letters only. Other case mappings are not modelled.
- **String order.** The model compares code points where `sort()` compares
  UTF-16 code units. The two orders agree on the `YYYY-MM-DD` keys the analyser sorts.
- **Splitting.** `split(/\r?\n/)` is modelled as a split on `"\n"` followed
  by `trim`, which also removes a trailing `"\r"`. The two agree on every
  line the tools look at.
- **Sorting.** `Array.prototype.sort` with the timestamp comparator is
  modelled as an insertion sort. It is proved to be a permutation, and to be
  in time order when every timestamp is valid. How readings with equal
  timestamps are arranged is not proved to match JavaScript's order. With
  an invalid timestamp the comparator is inconsistent and JavaScript leaves
  the order to the engine; the model makes one such choice.
- **Concurrency.**
  - Two logger processes racing on the counter or token file are not
    modelled; the model is one run at a time.
  - `DailyBudgetHolds` chains runs sequentially.
- **Partner registration.** Its answers, failures included, are ignored by
  the source. The model only counts the requests.
- **Entry timestamp and region.** The log entry's `ts` is the clock's stamp,
  taken as an input.
- **Region.** In the model `TESLA_REGION` appears only as the entry's
  `api_region`. Its other use, choosing the API base URL, belongs to the HTTP
  layer, which is not modelled.
- **One clock reading per run.** A run reads each clock once. The source
  reads `Date.now()` separately in `refreshAccessToken` and
  `getValidAccessToken` (`index.mjs:126`, `135`). It also reads today's date
  separately in the budget check and in `incWake` (`index.mjs:84`, via
  `294` and `303`). `incWake` runs after at least one polling sleep,
  at least ten seconds later. So the model does not cover a wake that crosses midnight
  UTC, where the source would restart the count at 1 under the new date.
- Vehicle.ReturnedId: when neither `id` nor `vehicle_id` is truthy, the
  source returns `String(vehicle_id)`. That is "undefined" only for an
  absent `vehicle_id`; it is "0", "null" or "" for the other falsy values.
  The model always returns "undefined".
- PollRun.Decide: its own contract only bounds the reads and wakes. What each
  branch does is stated by the lemmas that follow it (`FirstReadSucceeds`,
  `QuietSkipsWake`, `BudgetSkipsWake`, `PolicyForbidsWake`, `WakeCycle`).
- PollRun.AwakeOnFourthScenario: the "asleep" error text is any text the
  logger classifies as asleep. "vehicle unavailable" is one such text
  (`AsleepTextIsUnavailable`).

=== FILE: analyze.dfy ===
/** The daily analysis of analyze.mjs: consecutive readings form intervals,
    intervals across a charge or with unusable timestamps are set aside, and
    the state-of-charge drop of the rest is credited to the calendar day of
    each interval's midpoint. The local calendar is an input. */
module Analyze {
  import opened Wrappers
  import opened Text
  import opened Seqs
  import opened SocLog

  /** What `ymd` makes of an invalid date. */
  const InvalidDay: string := "NaN-NaN-NaN"

  /** The local `YYYY-MM-DD` of an instant given in epoch milliseconds. */
  type Calendar = int -> string

  /** The day a reading is filed under. */
  function DayOf(p: Point, cal: Calendar): (d: string)
    ensures p.time.None? ==> d == InvalidDay
    ensures p.time.Some? ==> d == cal(p.time.value)
  {
    match p.time
    case Some(t) => cal(t)
    case None => InvalidDay
  }

  /** `new Date((t1 + t2) / 2)`: the halfway instant, its fraction cut toward
      zero as `Date` does. */
  function Midpoint(t1: int, t2: int): (m: int)
    requires t1 < t2
    ensures t1 <= m <= t2
    ensures t1 + t2 - 1 <= 2 * m <= t1 + t2 + 1
  {
    var s := t1 + t2;
    if s >= 0 then s / 2 else -((-s) / 2)
  }

  /** `Math.max(A.soc_percent - B.soc_percent, 0)`: charge lost, never negative. */
  function SocDrop(a: Point, b: Point): (d: nat)
    ensures d >= a.soc - b.soc
    ensures a.soc >= b.soc ==> d == a.soc - b.soc
    ensures a.soc < b.soc ==> d == 0
  {
    if a.soc > b.soc then a.soc - b.soc else 0
  }

  datatype Reason =
    | BadTimestamp                        // an invalid, repeated or backward timestamp
    | OnCharge(durationMs: int, drop: nat)  // either end was charging

  datatype Interval =
    | Used(day: string, prevTs: string, currTs: string, durationMs: int, drop: nat,
           startSoc: int, endSoc: int)
    | Excluded(prevTs: string, currTs: string, reason: Reason)

  /** Both timestamps are valid and time moves forward between them. */
  predicate Forward(a: Point, b: Point) {
    a.time.Some? && b.time.Some? && a.time.value < b.time.value
  }

  /** The interval between two consecutive readings. */
  function Classify(a: Point, b: Point, cal: Calendar): (r: Interval)
    ensures r.prevTs == a.ts && r.currTs == b.ts
    // Timestamps are checked first ...
    ensures r == Excluded(a.ts, b.ts, BadTimestamp) <==> !Forward(a, b)
    // ... then charging at either end ...
    ensures r.Excluded? && r.reason.OnCharge? <==> Forward(a, b) && (a.charging || b.charging)
    // ... and only a forward interval without charging is used.
    ensures r.Used? <==> Forward(a, b) && !a.charging && !b.charging
    // Both kinds of forward interval carry the elapsed time and the drop.
    ensures r.Used? ==>
      r.durationMs == b.time.value - a.time.value > 0 && r.drop == SocDrop(a, b)
      && r.startSoc == a.soc && r.endSoc == b.soc
    ensures r.Excluded? && r.reason.OnCharge? ==>
      r.reason.durationMs == b.time.value - a.time.value > 0 && r.reason.drop == SocDrop(a, b)
    // A used interval is credited to the day of its midpoint.
    ensures r.Used? ==> r.day == cal(Midpoint(a.time.value, b.time.value))
  {
    if !Forward(a, b) then Excluded(a.ts, b.ts, BadTimestamp)
    else
      var t1, t2 := a.time.value, b.time.value;
      if a.charging || b.charging then Excluded(a.ts, b.ts, OnCharge(t2 - t1, SocDrop(a, b)))
      else
        var m := Midpoint(t1, t2);
        Used(cal(m), a.ts, b.ts, t2 - t1, SocDrop(a, b), a.soc, b.soc)
  }

  /** One interval per pair of consecutive readings. */
  function Intervals(points: seq<Point>, cal: Calendar): (r: seq<Interval>)
    ensures |r| == if |points| == 0 then 0 else |points| - 1
    ensures forall i | 0 <= i < |r| :: r[i] == Classify(points[i], points[i + 1], cal)
  {
    if |points| == 0 then []
    else seq(|points| - 1, i requires 0 <= i < |points| - 1 => Classify(points[i], points[i + 1], cal))
  }

  predicate IsUsed(iv: Interval) {
    iv.Used?
  }

  predicate IsExcluded(iv: Interval) {
    iv.Excluded?
  }

  /** Every pair of consecutive readings is either used or excluded, never both. */
  lemma IntervalsPartition(points: seq<Point>, cal: Calendar)
    requires |points| >= 1
    ensures |Filter(Intervals(points, cal), IsUsed)| + |Filter(Intervals(points, cal), IsExcluded)|
            == |points| - 1
  {
    FilterPartition(Intervals(points, cal), IsUsed, IsExcluded);
  }

  // ---------------------------------------------------------------------------
  // The day list: `Object.keys(byDay).sort()`
  // ---------------------------------------------------------------------------

  /** Strictly increasing, hence free of repeats. */
  predicate Ascending(s: seq<string>) {
    forall i, j | 0 <= i < j < |s| :: Precedes(s[i], s[j])
  }

  /** Adds a key to an ascending list unless it is already there. */
  function AddDay(x: string, s: seq<string>): (r: seq<string>)
    ensures forall y :: y in r <==> y == x || y in s
    decreases |s|
  {
    if |s| == 0 then [x]
    else if x == s[0] then s
    else if Precedes(x, s[0]) then [x] + s
    else [s[0]] + AddDay(x, s[1..])
  }

  lemma {:induction false} AddDayAscending(x: string, s: seq<string>)
    requires Ascending(s)
    ensures Ascending(AddDay(x, s))
    decreases |s|
  {
    if |s| > 0 && x != s[0] {
      if Precedes(x, s[0]) {
        forall j | 0 <= j < |s| ensures Precedes(x, s[j]) {
          if j > 0 {
            PrecedesTransitive(x, s[0], s[j]);
          }
        }
      } else {
        PrecedesTotal(x, s[0]);
        AddDayAscending(x, s[1..]);
        var rest := AddDay(x, s[1..]);
        forall j | 0 <= j < |rest| ensures Precedes(s[0], rest[j]) {
          assert rest[j] in rest;
        }
      }
    }
  }

  /** The distinct keys in ascending order. */
  function DayList(keys: seq<string>): (r: seq<string>)
    ensures forall y :: y in r <==> y in keys
    decreases |keys|
  {
    if |keys| == 0 then []
    else
      assert keys == [keys[0]] + keys[1..];
      AddDay(keys[0], DayList(keys[1..]))
  }

  lemma {:induction false} DayListAscending(keys: seq<string>)
    ensures Ascending(DayList(keys))
    decreases |keys|
  {
    if |keys| > 0 {
      DayListAscending(keys[1..]);
      AddDayAscending(keys[0], DayList(keys[1..]));
    }
  }

  /** A key occurs once in an ascending list. */
  lemma AscendingDistinct(s: seq<string>, i: nat, j: nat)
    requires Ascending(s) && i < |s| && j < |s| && s[i] == s[j]
    ensures i == j
  {
    if i < j {
      PrecedesIrreflexive(s[i]);
    } else if j < i {
      PrecedesIrreflexive(s[j]);
    }
  }

  // ---------------------------------------------------------------------------
  // Per-day figures
  // ---------------------------------------------------------------------------

  /** `byDay[d].drop`: the summed drop of the used intervals credited to `d`. */
  function DropOn(ivs: seq<Interval>, d: string): (t: nat)
    ensures (forall i | 0 <= i < |ivs| :: !ivs[i].Used? || ivs[i].day != d) ==> t == 0
    decreases |ivs|
  {
    if |ivs| == 0 then 0
    else (if ivs[0].Used? && ivs[0].day == d then ivs[0].drop else 0) + DropOn(ivs[1..], d)
  }

  /** The drop of all used intervals, whatever their day. */
  function TotalDrop(ivs: seq<Interval>): nat
    decreases |ivs|
  {
    if |ivs| == 0 then 0
    else (if ivs[0].Used? then ivs[0].drop else 0) + TotalDrop(ivs[1..])
  }

  /** `Math.min(...)` over a day's readings. */
  function MinSoc(ps: seq<Point>): (m: int)
    requires |ps| > 0
    ensures forall i | 0 <= i < |ps| :: m <= ps[i].soc
    ensures exists i | 0 <= i < |ps| :: m == ps[i].soc
    decreases |ps|
  {
    if |ps| == 1 then ps[0].soc
    else
      var rest := MinSoc(ps[1..]);
      assert forall i | 1 <= i < |ps| :: ps[i] == ps[1..][i - 1];
      if ps[0].soc <= rest then ps[0].soc else rest
  }

  /** `Math.max(...)` over a day's readings. */
  function MaxSoc(ps: seq<Point>): (m: int)
    requires |ps| > 0
    ensures forall i | 0 <= i < |ps| :: ps[i].soc <= m
    ensures exists i | 0 <= i < |ps| :: m == ps[i].soc
    decreases |ps|
  {
    if |ps| == 1 then ps[0].soc
    else
      var rest := MaxSoc(ps[1..]);
      assert forall i | 1 <= i < |ps| :: ps[i] == ps[1..][i - 1];
      if ps[0].soc >= rest then ps[0].soc else rest
  }

  /** The readings filed under `d`, re-sorted by time as `pointsByDay[d]` is. */
  function PointsOn(points: seq<Point>, d: string, cal: Calendar): (r: seq<Point>)
    ensures forall p :: p in r <==> p in points && DayOf(p, cal) == d
    ensures AllTimed(points) ==> Chronological(r)
  {
    var mine := Filter(points, p => DayOf(p, cal) == d);
    var r := SortByTime(mine);
    assert forall p :: p in r <==> p in mine by {
      forall p ensures p in r <==> p in mine {
        assert p in r <==> p in multiset(r);
        assert p in mine <==> p in multiset(mine);
      }
    }
    assert AllTimed(points) ==> Chronological(r) by {
      if AllTimed(points) {
        forall i | 0 <= i < |mine| ensures mine[i].time.Some? {
          assert mine[i] in mine;
        }
        SortIsChronological(mine);
      }
    }
    r
  }

  /** One row of the daily table; the reading figures are `None` (`null`) on a
      day that only has intervals credited to it. */
  datatype DayStats = DayStats(drop: nat, first: Option<int>, last: Option<int>,
                               min: Option<int>, max: Option<int>)

  /** `byDay[d]` as the daily series report it. */
  function StatsOf(points: seq<Point>, used: seq<Interval>, d: string, cal: Calendar): (s: DayStats)
    ensures s.drop == DropOn(used, d)
    // The reading figures are present exactly when the day has readings ...
    ensures s.first.Some? <==> |PointsOn(points, d, cal)| > 0
    ensures s.last.Some? == s.first.Some? && s.min.Some? == s.first.Some? && s.max.Some? == s.first.Some?
    // ... the first and last are taken from the day's readings in time order ...
    ensures s.first.Some? ==> var ps := PointsOn(points, d, cal);
      s.first.value == ps[0].soc && s.last.value == ps[|ps| - 1].soc
    // ... and the range covers every one of them.
    ensures s.min.Some? ==> var ps := PointsOn(points, d, cal);
      forall i | 0 <= i < |ps| :: s.min.value <= ps[i].soc <= s.max.value
  {
    var ps := PointsOn(points, d, cal);
    if |ps| == 0 then DayStats(DropOn(used, d), None, None, None, None)
    else DayStats(DropOn(used, d), Some(ps[0].soc), Some(ps[|ps| - 1].soc), Some(MinSoc(ps)), Some(MaxSoc(ps)))
  }

  /** A day has reading figures exactly when some reading falls on it. */
  lemma DayHasFigures(points: seq<Point>, used: seq<Interval>, d: string, cal: Calendar)
    ensures StatsOf(points, used, d, cal).first.Some? <==> exists p | p in points :: DayOf(p, cal) == d
  {
    var ps := PointsOn(points, d, cal);
    if |ps| > 0 {
      assert ps[0] in ps;
    }
  }

  /** The range of a day with readings is the lowest and highest state of
      charge among them: it covers every reading of the day and both ends
      are attained. */
  lemma DayRange(points: seq<Point>, used: seq<Interval>, d: string, cal: Calendar)
    requires StatsOf(points, used, d, cal).min.Some?
    ensures var s := StatsOf(points, used, d, cal);
      && (forall p | p in points && DayOf(p, cal) == d :: s.min.value <= p.soc <= s.max.value)
      && (exists p | p in points && DayOf(p, cal) == d :: p.soc == s.min.value)
      && (exists p | p in points && DayOf(p, cal) == d :: p.soc == s.max.value)
  {
    var ps := PointsOn(points, d, cal);
    var s := StatsOf(points, used, d, cal);
    forall p | p in points && DayOf(p, cal) == d ensures s.min.value <= p.soc <= s.max.value {
      assert p in ps;
      var k :| 0 <= k < |ps| && ps[k] == p;
    }
    var i :| 0 <= i < |ps| && MinSoc(ps) == ps[i].soc;
    var j :| 0 <= j < |ps| && MaxSoc(ps) == ps[j].soc;
    assert ps[i] in ps && ps[j] in ps;
  }

  /** In a chronological run of timed readings, the first is the earliest
      and the last the latest. */
  lemma ChronologicalEnds(ps: seq<Point>, x: Point)
    requires Chronological(ps) && AllTimed(ps) && x in ps
    ensures x.time.Some?
    ensures ps[0].time.value <= x.time.value <= ps[|ps| - 1].time.value
  {
    var k :| 0 <= k < |ps| && ps[k] == x;
  }

  /** With valid timestamps, the day's readings in time order start with its
      earliest reading and end with its latest, which is where `StatsOf`
      takes the first and last figures from. */
  lemma DayEnds(points: seq<Point>, d: string, cal: Calendar)
    requires AllTimed(points)
    requires exists x | x in points :: DayOf(x, cal) == d
    ensures var ps := PointsOn(points, d, cal);
      && |ps| > 0 && ps[0].time.Some? && ps[|ps| - 1].time.Some?
      && DayOf(ps[0], cal) == d && DayOf(ps[|ps| - 1], cal) == d
      && forall x | x in points && DayOf(x, cal) == d ::
           ps[0].time.value <= x.time.value <= ps[|ps| - 1].time.value
  {
    var ps := PointsOn(points, d, cal);
    var p0 :| p0 in points && DayOf(p0, cal) == d;
    assert p0 in ps;
    SubTimed(ps, points);
    assert ps[0] in ps && ps[|ps| - 1] in ps;
    forall x | x in points && DayOf(x, cal) == d
      ensures ps[0].time.value <= x.time.value <= ps[|ps| - 1].time.value
    {
      ChronologicalEnds(ps, x);
    }
  }

  /** What `analyze` returns, without the hourly resampling. The daily series
      `dailyDrop`, `dailyFirst`, `dailyLast`, `dailyMin` and `dailyMax` are the
      columns of `rows`, which runs parallel to `days`. */
  datatype Summary = Summary(
    days: seq<string>,
    rows: seq<DayStats>,
    seriesTs: seq<string>,
    seriesSoc: seq<int>,
    used: seq<Interval>,
    excluded: seq<Interval>)

  /** The day of every reading, then the day of every used interval. */
  function DayKeys(points: seq<Point>, used: seq<Interval>, cal: Calendar): (r: seq<string>)
    requires forall i | 0 <= i < |used| :: used[i].Used?
    ensures forall d :: d in r <==>
      (exists p | p in points :: DayOf(p, cal) == d) || (exists iv | iv in used :: iv.day == d)
  {
    var pd := seq(|points|, i requires 0 <= i < |points| => DayOf(points[i], cal));
    var ud := seq(|used|, i requires 0 <= i < |used| => used[i].day);
    assert forall d :: d in pd <==> exists p | p in points :: DayOf(p, cal) == d by {
      forall d ensures d in pd <==> exists p | p in points :: DayOf(p, cal) == d {
        if exists p | p in points :: DayOf(p, cal) == d {
          var p :| p in points && DayOf(p, cal) == d;
          var i :| 0 <= i < |points| && points[i] == p;
          assert pd[i] == d;
        }
      }
    }
    assert forall d :: d in ud <==> exists iv | iv in used :: iv.day == d by {
      forall d ensures d in ud <==> exists iv | iv in used :: iv.day == d {
        if exists iv | iv in used :: iv.day == d {
          var iv :| iv in used && iv.day == d;
          var i :| 0 <= i < |used| && used[i] == iv;
          assert ud[i] == d;
        }
      }
    }
    pd + ud
  }

  /** `analyze(points)`. */
  function AnalyzePoints(points: seq<Point>, cal: Calendar): (s: Summary)
    // The intervals are split by kind, in reading order, ...
    ensures s.used == Filter(Intervals(points, cal), IsUsed)
    ensures s.excluded == Filter(Intervals(points, cal), IsExcluded)
    // ... and every pair of consecutive readings is accounted for exactly once.
    ensures |s.used| + |s.excluded| == if |points| == 0 then 0 else |points| - 1
    ensures forall i | 0 <= i < |s.used| :: s.used[i].Used?
    ensures forall i | 0 <= i < |s.excluded| :: s.excluded[i].Excluded?
    // The days are in ascending order, without repeats, and are exactly the
    // days of the readings together with the days of the used intervals.
    ensures Ascending(s.days)
    ensures forall d :: d in s.days <==>
      (exists p | p in points :: DayOf(p, cal) == d) || (exists iv | iv in s.used :: iv.day == d)
    // Every day has its row.
    ensures |s.rows| == |s.days|
    ensures forall i | 0 <= i < |s.days| :: s.rows[i] == StatsOf(points, s.used, s.days[i], cal)
    // The raw series repeat the readings.
    ensures |s.seriesTs| == |s.seriesSoc| == |points|
    ensures forall i | 0 <= i < |points| :: s.seriesTs[i] == points[i].ts && s.seriesSoc[i] == points[i].soc
  {
    var ivs := Intervals(points, cal);
    var used := Filter(ivs, IsUsed);
    var excluded := Filter(ivs, IsExcluded);
    SortedKinds(ivs);
    var days := Days(points, used, cal);
    Summary(days, Rows(points, used, days, cal), Stamps(points), Socs(points), used, excluded)
  }

  /** `Object.keys(byDay).sort()`: the days of the readings and of the used
      intervals, ascending and each once. */
  function Days(points: seq<Point>, used: seq<Interval>, cal: Calendar): (r: seq<string>)
    requires forall i | 0 <= i < |used| :: used[i].Used?
    ensures Ascending(r)
    ensures forall d :: d in r <==>
      (exists p | p in points :: DayOf(p, cal) == d) || (exists iv | iv in used :: iv.day == d)
  {
    DayListAscending(DayKeys(points, used, cal));
    DayList(DayKeys(points, used, cal))
  }

  /** Splitting the intervals by kind loses none and mixes none. */
  lemma SortedKinds(ivs: seq<Interval>)
    ensures |Filter(ivs, IsUsed)| + |Filter(ivs, IsExcluded)| == |ivs|
    ensures forall i | 0 <= i < |Filter(ivs, IsUsed)| :: Filter(ivs, IsUsed)[i].Used?
    ensures forall i | 0 <= i < |Filter(ivs, IsExcluded)| :: Filter(ivs, IsExcluded)[i].Excluded?
  {
    FilterPartition(ivs, IsUsed, IsExcluded);
    var used := Filter(ivs, IsUsed);
    var excluded := Filter(ivs, IsExcluded);
    forall i | 0 <= i < |used| ensures used[i].Used? {
      assert used[i] in used;
    }
    forall i | 0 <= i < |excluded| ensures excluded[i].Excluded? {
      assert excluded[i] in excluded;
    }
  }

  /** One row of figures per listed day. */
  function Rows(points: seq<Point>, used: seq<Interval>, days: seq<string>, cal: Calendar): (r: seq<DayStats>)
    ensures |r| == |days|
    ensures forall i | 0 <= i < |days| :: r[i] == StatsOf(points, used, days[i], cal)
  {
    seq(|days|, i requires 0 <= i < |days| => StatsOf(points, used, days[i], cal))
  }

  function Stamps(points: seq<Point>): (r: seq<string>)
    ensures |r| == |points| && forall i | 0 <= i < |points| :: r[i] == points[i].ts
  {
    seq(|points|, i requires 0 <= i < |points| => points[i].ts)
  }

  function Socs(points: seq<Point>): (r: seq<int>)
    ensures |r| == |points| && forall i | 0 <= i < |points| :: r[i] == points[i].soc
  {
    seq(|points|, i requires 0 <= i < |points| => points[i].soc)
  }

  // ---------------------------------------------------------------------------
  // Every used interval's drop is credited to exactly one day
  // ---------------------------------------------------------------------------

  /** The drops credited to the listed days. */
  function DropsOver(days: seq<string>, ivs: seq<Interval>): nat
    decreases |days|
  {
    if |days| == 0 then 0 else DropOn(ivs, days[0]) + DropsOver(days[1..], ivs)
  }

  /** What one interval contributes to the listed days. */
  function Share(days: seq<string>, iv: Interval): nat
    decreases |days|
  {
    if |days| == 0 then 0
    else (if iv.Used? && iv.day == days[0] then iv.drop else 0) + Share(days[1..], iv)
  }

  /** Over days without repeats, an interval is credited once if its day is
      listed and not at all otherwise. */
  lemma {:induction false} ShareOnce(days: seq<string>, iv: Interval)
    requires Ascending(days)
    ensures Share(days, iv) == if iv.Used? && iv.day in days then iv.drop else 0
    decreases |days|
  {
    if |days| > 0 {
      ShareOnce(days[1..], iv);
      if iv.Used? && iv.day == days[0] {
        forall j | 0 <= j < |days[1..]| ensures days[1..][j] != iv.day {
          if days[j + 1] == iv.day {
            AscendingDistinct(days, 0, j + 1);
          }
        }
      }
    }
  }

  lemma {:induction false} DropsOverCons(days: seq<string>, iv: Interval, ivs: seq<Interval>)
    ensures DropsOver(days, [iv] + ivs) == Share(days, iv) + DropsOver(days, ivs)
    decreases |days|
  {
    if |days| > 0 {
      assert ([iv] + ivs)[1..] == ivs;
      DropsOverCons(days[1..], iv, ivs);
    }
  }

  /** Summed over a repeat-free list holding every used interval's day, the
      daily drops add up to the total drop of the used intervals. */
  lemma {:induction false} DropsConserved(days: seq<string>, ivs: seq<Interval>)
    requires Ascending(days)
    requires forall i | 0 <= i < |ivs| :: ivs[i].Used? ==> ivs[i].day in days
    ensures DropsOver(days, ivs) == TotalDrop(ivs)
    decreases |ivs|
  {
    if |ivs| == 0 {
      DropsOverEmpty(days, ivs);
    } else {
      assert ivs == [ivs[0]] + ivs[1..];
      DropsOverCons(days, ivs[0], ivs[1..]);
      ShareOnce(days, ivs[0]);
      DropsConserved(days, ivs[1..]);
    }
  }

  lemma {:induction false} DropsOverEmpty(days: seq<string>, ivs: seq<Interval>)
    requires |ivs| == 0
    ensures DropsOver(days, ivs) == 0
    decreases |days|
  {
    if |days| > 0 {
      DropsOverEmpty(days[1..], ivs);
    }
  }

  /** The sum of the `dailyDrop` column. */
  function RowsDrop(rows: seq<DayStats>): nat
    decreases |rows|
  {
    if |rows| == 0 then 0 else rows[0].drop + RowsDrop(rows[1..])
  }

  lemma {:induction false} RowsDropOver(rows: seq<DayStats>, days: seq<string>, ivs: seq<Interval>)
    requires |rows| == |days|
    requires forall i | 0 <= i < |days| :: rows[i].drop == DropOn(ivs, days[i])
    ensures RowsDrop(rows) == DropsOver(days, ivs)
    decreases |days|
  {
    if |days| > 0 {
      RowsDropOver(rows[1..], days[1..], ivs);
    }
  }

  /** The `dailyDrop` series adds up to the drop of all used intervals: each
      is credited to exactly one day and nothing else is credited. */
  lemma DailyDropsAddUp(points: seq<Point>, cal: Calendar)
    ensures var s := AnalyzePoints(points, cal);
      RowsDrop(s.rows) == TotalDrop(s.used)
  {
    var s := AnalyzePoints(points, cal);
    forall i | 0 <= i < |s.used| ensures s.used[i].day in s.days {
      assert s.used[i] in s.used;
    }
    RowsDropOver(s.rows, s.days, s.used);
    DropsConserved(s.days, s.used);
  }

  // ---------------------------------------------------------------------------
  // The reporting window of `main`
  // ---------------------------------------------------------------------------

  /** `DAYS_REPORT`: the environment variable, "14" when unset or empty, read
      with `parseInt`; `None` stands for NaN. */
  function ReportDays(env: string): (r: Option<int>)
    ensures env == "" ==> r == Some(14)
    // A set value is read as `parseInt` reads it.
    ensures env != "" ==> r == ParseInt(env)
  {
    assert "14" == "14" + "";
    ParseIntOfDigits("14", "");
    ParseInt(if env == "" then "14" else env)
  }

  /** `Date.now() - DAYS_REPORT * MS_DAY`; NaN days make a NaN cutoff. */
  function ReportCutoff(now: int, days: Option<int>): (c: Option<int>)
    ensures c.Some? <==> days.Some?
    ensures c.Some? ==> c.value + days.value * MsDay == now
  {
    match days
    case Some(d) => Some(now - d * MsDay)
    case None => None
  }

  /** `+new Date(p.ts) >= cutoff`: false whenever either side is NaN. */
  predicate Recent(p: Point, cutoff: Option<int>) {
    p.time.Some? && cutoff.Some? && p.time.value >= cutoff.value
  }

  /** The readings the daily figures are computed from: the recent ones when
      there are at least two of them, otherwise the whole history. */
  function Window(all: seq<Point>, cutoff: Option<int>): (r: seq<Point>)
    // With at least two recent readings, exactly those are kept ...
    ensures |Filter(all, p => Recent(p, cutoff))| >= 2 ==>
      |r| >= 2 && forall p :: p in r <==> p in all && Recent(p, cutoff)
    ensures |Filter(all, p => Recent(p, cutoff))| >= 2 ==> r == Filter(all, p => Recent(p, cutoff))
    // ... otherwise nothing is dropped.
    ensures |Filter(all, p => Recent(p, cutoff))| < 2 ==> r == all
    // The window never has fewer than two readings when the history has them,
    ensures |all| >= 2 ==> |r| >= 2
    // and it keeps the history's order.
    ensures Chronological(all) ==> Chronological(r)
  {
    var recent := Filter(all, p => Recent(p, cutoff));
    assert Chronological(all) ==> Chronological(recent) by {
      if Chronological(all) {
        FilterChronological(all, p => Recent(p, cutoff));
      }
    }
    if |recent| >= 2 then recent else all
  }

  /** `main`: load, pick the window, analyse. `file` is the log's content,
      `None` when it cannot be read. */
  function Report(file: Option<string>, parse: Parser, now: int, env: string, cal: Calendar)
    : (r: Result<Summary, LoadError>)
    ensures r.Err? <==> LoadPoints(file, parse).Err?
    ensures r.Err? ==> r.error == LoadPoints(file, parse).error
    // A report always covers at least two readings and one interval.
    ensures r.Ok? ==> |r.value.seriesSoc| >= 2 && |r.value.used| + |r.value.excluded| >= 1
    // The report covers no more readings than were loaded.
    ensures r.Ok? ==> |r.value.seriesSoc| <= |LoadPoints(file, parse).value|
    // The series are those of the last `DAYS_REPORT` days when at least two
    // readings fall in them, otherwise those of the whole history.
    ensures r.Ok? ==>
      var all := LoadPoints(file, parse).value;
      var recent := Filter(all, p => Recent(p, ReportCutoff(now, ReportDays(env))));
      var w := if |recent| >= 2 then recent else all;
      r.value.seriesTs == Stamps(w) && r.value.seriesSoc == Socs(w)
    // The whole analysis, the daily part included, is of that window.
    ensures r.Ok? ==>
      var all := LoadPoints(file, parse).value;
      r.value == AnalyzePoints(Window(all, ReportCutoff(now, ReportDays(env))), cal)
  {
    var all :- LoadPoints(file, parse);
    Ok(AnalyzePoints(Window(all, ReportCutoff(now, ReportDays(env))), cal))
  }

  /** When every loaded reading lies within the reporting window, nothing is
      dropped: the report is the analysis of the whole history. */
  lemma ReportAllRecent(file: Option<string>, parse: Parser, now: int, env: string, cal: Calendar)
    requires LoadPoints(file, parse).Ok?
    requires var all := LoadPoints(file, parse).value;
      forall i | 0 <= i < |all| :: Recent(all[i], ReportCutoff(now, ReportDays(env)))
    ensures Report(file, parse, now, env, cal) == Ok(AnalyzePoints(LoadPoints(file, parse).value, cal))
  {
    var all := LoadPoints(file, parse).value;
    var cutoff := ReportCutoff(now, ReportDays(env));
    FilterAllPass(all, p => Recent(p, cutoff));
  }
}

=== FILE: poll_run.dfy ===
/** One invocation of the logger (`main` in index.mjs): settings check, a valid
    access token, best-effort partner registration, vehicle-id resolution with a
    single registration retry, the first read, and on its failure the quiet,
    policy and daily-budget gates in front of a wake, the counter increment and
    the re-read; finally the normalised log entry. Clocks, files and every
    network answer are inputs; `process.exit` becomes an outcome value. */
module PollRun {
  import opened Wrappers
  import opened Text
  import QuietWindow
  import opened WakeCounter
  import opened Tokens
  import opened Vehicle
  import opened Wake

  /** The settings `main` reads, after the environment's defaults are applied. */
  datatype Config = Config(
    clientId: string,
    redirectUri: string,
    vehicleTag: string,
    wakePolicy: string,           // "onfail" | "never" | "always"
    quietWindow: string,          // "HH:MM-HH:MM"
    maxWakePerDay: string,
    exitZeroOnQuiet: string,
    autoPartnerRegister: string,
    partnerDomain: string,
    region: string)

  /** Clock readings of a run: epoch milliseconds, the local minute of the day
      (what `QuietWindow.MinutesOfDay` makes of the local hours and minutes),
      today's date as the counter file spells it, and the log entry's stamp.
      Each is read once per run. */
  datatype Clock = Clock(now: int, tod: int, today: string, stamp: string)

  /** The token file and the wake-counter file (`None`: missing or unreadable). */
  datatype Files = Files(tokens: Option<Credential>, counter: Option<Counter>)

  /** The remote API's answers, each kind in request order: the token grant,
      the vehicle-list requests, the vehicle-data reads and the wake request.
      Partner registration answers are not listed: they are always ignored. */
  datatype Network = Network(
    grant: Result<Grant, string>,
    lists: seq<Result<seq<VehicleRec>, string>>,
    data: seq<Read>,
    wakePost: Result<(), string>)

  /** The record appended to the log (the odometer is not modelled). */
  datatype LogEntry = LogEntry(
    ts: string,
    soc: Option<int>,
    isCharging: bool,
    chargingState: string,
    awakeVia: string,
    apiRegion: string,
    onlineState: string)

  datatype Failure =
    | MissingSetting(name: string)
    | Auth(auth: AuthError)
    | Lookup(lookup: ResolveError)
    | ReadFailed(text: string)
    | WakeNotAllowed

  /** How a run ends: an entry logged, one of the two planned skips (each a
      `process.exit`), or an error caught by `main().catch`. */
  datatype Outcome =
    | Logged(entry: LogEntry)
    | QuietSkip(code: int)
    | BudgetSkip
    | Failed(failure: Failure)

  function ExitCode(o: Outcome): int {
    match o
    case Logged(_) => 0
    case QuietSkip(code) => code
    case BudgetSkip => 0
    case Failed(_) => 1
  }

  /** Everything one run leaves behind: its outcome, both files, and how many
      requests of each kind it made. */
  datatype Run = Run(
    outcome: Outcome,
    tokens: Option<Credential>,
    counter: Option<Counter>,
    refreshes: nat,
    partnerPosts: nat,
    listReads: nat,
    dataReads: nat,
    wakes: nat)

  // ---------------------------------------------------------------------------
  // Setup: settings, token, registration, vehicle id
  // ---------------------------------------------------------------------------

  /** Partner registration requests one `ensurePartnerRegistered` call makes;
      their answers, failures included, are ignored. */
  function RegistrationPosts(cfg: Config): nat {
    if Lower(cfg.autoPartnerRegister) == "true" && cfg.partnerDomain != "" then 1 else 0
  }

  /** `/must be registered in the current region/i`. */
  predicate RegistrationError(message: string) {
    Contains(Lower(message), "must be registered in the current region")
  }

  /** Whether `getValidAccessToken` issues the refresh grant. */
  predicate RefreshIssued(file: Option<Credential>, now: int) {
    GetTokens(file).Ok? && NeedsRefresh(file.value, now)
  }

  /** `resolveVehicleId` with `main`'s one-shot retry: an error whose message
      asks for registration re-registers (errors ignored) and resolves again. */
  datatype Resolution = Resolution(vehicle: Result<string, ResolveError>, listReads: nat, retried: bool)

  function LookupVehicle(tag: string, lists: seq<Result<seq<VehicleRec>, string>>): (l: Resolution)
    // A numeric tag needs no list request.
    ensures IsNumeric(tag) ==> l == Resolution(Ok(tag), 0, false)
    // Otherwise one request, and a second one only after a registration error.
    ensures !IsNumeric(tag) ==> l.listReads == if l.retried then 2 else 1
    ensures l.retried <==>
      Resolve(tag, At(lists, 0)).Err? && RegistrationError(Message(Resolve(tag, At(lists, 0)).error))
    ensures l.vehicle == Resolve(tag, At(lists, if l.retried then 1 else 0))
  {
    var first := Resolve(tag, At(lists, 0));
    var count := if IsNumeric(tag) then 0 else 1;
    match first
    case Ok(_) => Resolution(first, count, false)
    case Err(e) =>
      if RegistrationError(Message(e)) then Resolution(Resolve(tag, At(lists, 1)), 2, true)
      else Resolution(first, count, false)
  }

  /** What the setup leaves: the vehicle id or the failure, the token file,
      and the requests made. */
  datatype Setup = Setup(
    vehicle: Result<string, Failure>,
    tokens: Option<Credential>,
    refreshes: nat,
    partnerPosts: nat,
    listReads: nat)

  predicate SettingsPresent(cfg: Config) {
    cfg.clientId != "" && cfg.redirectUri != "" && cfg.vehicleTag != ""
  }

  /** The first part of `main`, up to and including `resolveVehicleId`. */
  function Prepare(cfg: Config, clock: Clock, files: Files, net: Network): (s: Setup)
    // One refresh grant exactly when the stored token needs it, none otherwise.
    ensures s.refreshes == if SettingsPresent(cfg) && RefreshIssued(files.tokens, clock.now) then 1 else 0
    // The token file changes only through a successful refresh.
    ensures s.tokens != files.tokens ==> s.refreshes == 1 && s.tokens.Some? && s.tokens.value.refresh != ""
    // Registration is posted once, and once more only on the retry.
    ensures s.partnerPosts <= 2 * RegistrationPosts(cfg)
    ensures s.listReads <= 2
    // Exactly: nothing is requested before the settings and the token are in
    // hand, then the lookup's list reads and one registration per attempt.
    ensures !(SettingsPresent(cfg) && GetValidAccessToken(files.tokens, clock.now, net.grant).Ok?) ==>
      s.partnerPosts == 0 && s.listReads == 0
    ensures SettingsPresent(cfg) && GetValidAccessToken(files.tokens, clock.now, net.grant).Ok? ==>
      var l := LookupVehicle(cfg.vehicleTag, net.lists);
      s.listReads == l.listReads && s.partnerPosts == (if l.retried then 2 else 1) * RegistrationPosts(cfg)
    // The settings are checked first, in order, each failure naming its setting ...
    ensures cfg.clientId == "" ==> s.vehicle == Err(MissingSetting("TESLA_CLIENT_ID"))
    ensures cfg.clientId != "" && cfg.redirectUri == "" ==>
      s.vehicle == Err(MissingSetting("TESLA_REDIRECT_URI"))
    ensures cfg.clientId != "" && cfg.redirectUri != "" && cfg.vehicleTag == "" ==>
      s.vehicle == Err(MissingSetting("TESLA_VEHICLE_TAG"))
    // ... then a credential failure ends the setup ...
    ensures SettingsPresent(cfg) && GetValidAccessToken(files.tokens, clock.now, net.grant).Err? ==>
      s.vehicle == Err(Auth(GetValidAccessToken(files.tokens, clock.now, net.grant).error))
    // ... and otherwise the vehicle id is the lookup's, with its error wrapped.
    ensures SettingsPresent(cfg) && GetValidAccessToken(files.tokens, clock.now, net.grant).Ok? ==>
      var v := LookupVehicle(cfg.vehicleTag, net.lists).vehicle;
      (v.Ok? ==> s.vehicle == Ok(v.value)) && (v.Err? ==> s.vehicle == Err(Lookup(v.error)))
  {
    if cfg.clientId == "" then Setup(Err(MissingSetting("TESLA_CLIENT_ID")), files.tokens, 0, 0, 0)
    else if cfg.redirectUri == "" then Setup(Err(MissingSetting("TESLA_REDIRECT_URI")), files.tokens, 0, 0, 0)
    else if cfg.vehicleTag == "" then Setup(Err(MissingSetting("TESLA_VEHICLE_TAG")), files.tokens, 0, 0, 0)
    else
      var refreshes := if RefreshIssued(files.tokens, clock.now) then 1 else 0;
      match GetValidAccessToken(files.tokens, clock.now, net.grant)
      case Err(e) => Setup(Err(Auth(e)), files.tokens, refreshes, 0, 0)
      case Ok(session) =>
        var tokens := if session.refreshed then Some(session.tokens) else files.tokens;
        var l := LookupVehicle(cfg.vehicleTag, net.lists);
        var posts := if l.retried then 2 * RegistrationPosts(cfg) else RegistrationPosts(cfg);
        match l.vehicle
        case Ok(id) => Setup(Ok(id), tokens, refreshes, posts, l.listReads)
        case Err(e) => Setup(Err(Lookup(e)), tokens, refreshes, posts, l.listReads)
  }

  // ---------------------------------------------------------------------------
  // The read, the wake decision and the log entry
  // ---------------------------------------------------------------------------

  /** `(EXIT_ZERO_ON_QUIET || "true").toLowerCase() === "true"`. */
  predicate QuietExitZero(setting: string) {
    Lower(if setting == "" then "true" else setting) == "true"
  }

  predicate PolicyWakes(cfg: Config) {
    cfg.wakePolicy == "always" || cfg.wakePolicy == "onfail"
  }

  /** The normalised log entry built from a read. */
  function Entry(snap: Snapshot, woke: bool, stamp: string, region: string): LogEntry {
    LogEntry(
      stamp,
      snap.batteryLevel,
      Lower(snap.chargingState) == "charging",
      snap.chargingState,
      if woke then "wake" else "none",
      region,
      if snap.state != "" then snap.state else snap.vehicleState)
  }

  /** The entry is normalised: charging exactly when the charging state reads
      "charging" in any letter case, the online state falls back to the
      vehicle state and is empty only when both are, the state of charge is
      missing exactly when the reading is, and the entry says "wake" exactly
      when a wake preceded it. */
  lemma EntryNormalised(snap: Snapshot, woke: bool, stamp: string, region: string)
    ensures var e := Entry(snap, woke, stamp, region);
      && (e.isCharging <==>
            |snap.chargingState| == 8
            && forall i | 0 <= i < 8 :: LowerChar(snap.chargingState[i]) == "charging"[i])
      && e.chargingState == snap.chargingState
      && (snap.state != "" ==> e.onlineState == snap.state)
      && (e.onlineState == "" <==> snap.state == "" && snap.vehicleState == "")
      && (e.soc.None? <==> snap.batteryLevel.None?)
      && (e.awakeVia == "wake" <==> woke)
      && e.ts == stamp && e.apiRegion == region
  {
    var c := snap.chargingState;
    if |c| == 8 && forall i | 0 <= i < 8 :: LowerChar(c[i]) == "charging"[i] {
      assert Lower(c) == "charging";
    }
  }

  /** What the second part of a run leaves: outcome, counter file, requests. */
  datatype Tail = Tail(outcome: Outcome, counter: Option<Counter>, dataReads: nat, wakes: nat)

  /** The settings and clock readings the decision depends on. */
  datatype Gates = Gates(quiet: bool, maxWake: int, mayWake: bool, exitZero: bool, region: string)

  function GatesOf(cfg: Config, clock: Clock): (g: Gates)
    ensures g.quiet <==> QuietWindow.InQuietWindow(cfg.quietWindow, clock.tod)
    // A wake may be considered only outside the quiet window and under a
    // waking policy: "never" and unknown policies never wake.
    ensures g.mayWake <==> !g.quiet && PolicyWakes(cfg)
    ensures g.maxWake == IntOrZero(cfg.maxWakePerDay)
    ensures g.exitZero <==> QuietExitZero(cfg.exitZeroOnQuiet)
  {
    var quiet := QuietWindow.InQuietWindow(cfg.quietWindow, clock.tod);
    var allowWakeNow := cfg.wakePolicy != "never" && !quiet;
    Gates(quiet, IntOrZero(cfg.maxWakePerDay), allowWakeNow && PolicyWakes(cfg),
          QuietExitZero(cfg.exitZeroOnQuiet), cfg.region)
  }

  /** The part of `main` after the vehicle id is known. */
  function Decide(cfg: Config, clock: Clock, counter: Option<Counter>, net: Network): (t: Tail)
    ensures t.wakes <= 1
    ensures 1 <= t.dataReads <= 2 + PolledReads + 1
  {
    DecideBy(GatesOf(cfg, clock), clock, counter, net)
  }

  function DecideBy(g: Gates, clock: Clock, counter: Option<Counter>, net: Network): (t: Tail)
    ensures t.wakes <= 1
    ensures 1 <= t.dataReads <= 2 + PolledReads + 1
  {
    match At(net.data, 0)
    case Ok(snap) => Tail(Logged(Entry(snap, false, clock.stamp, g.region)), counter, 1, 0)
    case Err(text) =>
      if g.quiet && Unavailable(text) then
        Tail(QuietSkip(if g.exitZero then 0 else 1), counter, 1, 0)
      else if g.mayWake then
        var ws := GetWakeState(counter, clock.today);
        var loaded := FileAfterLoad(counter, clock.today);
        if ws.count >= g.maxWake then Tail(BudgetSkip, loaded, 1, 0)
        else
          var w := WakeVehicle(net.wakePost, Drop(net.data, 1));
          match w.result
          case Err(e) => Tail(Failed(ReadFailed(e)), loaded, 1 + w.attempts, 1)
          case Ok(_) =>
            var bumped := Some(IncWake(loaded, clock.today));
            match At(net.data, 1 + w.attempts)
            case Ok(snap) => Tail(Logged(Entry(snap, true, clock.stamp, g.region)), bumped, 2 + w.attempts, 1)
            case Err(e) => Tail(Failed(ReadFailed(e)), bumped, 2 + w.attempts, 1)
      else Tail(Failed(WakeNotAllowed), counter, 1, 0)
  }

  /** One whole run of `main`. */
  function RunOnce(cfg: Config, clock: Clock, files: Files, net: Network): (r: Run)
    // Nothing after the setup happens unless the setup succeeded.
    ensures Prepare(cfg, clock, files, net).vehicle.Err? ==>
      && r.outcome == Failed(Prepare(cfg, clock, files, net).vehicle.error)
      && r.counter == files.counter && r.dataReads == 0 && r.wakes == 0
    ensures Prepare(cfg, clock, files, net).vehicle.Ok? ==>
      var t := Decide(cfg, clock, files.counter, net);
      r.outcome == t.outcome && r.counter == t.counter && r.dataReads == t.dataReads && r.wakes == t.wakes
  {
    var s := Prepare(cfg, clock, files, net);
    match s.vehicle
    case Err(f) => Run(Failed(f), s.tokens, files.counter, s.refreshes, s.partnerPosts, s.listReads, 0, 0)
    case Ok(_) =>
      var t := Decide(cfg, clock, files.counter, net);
      Run(t.outcome, s.tokens, t.counter, s.refreshes, s.partnerPosts, s.listReads, t.dataReads, t.wakes)
  }

  // ---------------------------------------------------------------------------
  // Properties of the decision
  // ---------------------------------------------------------------------------

  /** Today's count in a counter file. */
  function Today(counter: Option<Counter>, clock: Clock): int {
    GetWakeState(counter, clock.today).count
  }

  /** A successful first read is logged as it is: no wake, counter untouched. */
  lemma FirstReadSucceeds(cfg: Config, clock: Clock, counter: Option<Counter>, net: Network)
    requires At(net.data, 0).Ok?
    ensures var t := Decide(cfg, clock, counter, net);
      && t.outcome == Logged(Entry(At(net.data, 0).value, false, clock.stamp, cfg.region))
      && t.outcome.entry.awakeVia == "none"
      && t.counter == counter && t.wakes == 0 && t.dataReads == 1
  {
  }

  /** In the quiet window an "asleep" failure stops the run without waking;
      the exit code is 0 exactly when EXIT_ZERO_ON_QUIET says "true". */
  lemma QuietSkipsWake(cfg: Config, clock: Clock, counter: Option<Counter>, net: Network)
    requires At(net.data, 0).Err? && Unavailable(At(net.data, 0).error)
    requires QuietWindow.InQuietWindow(cfg.quietWindow, clock.tod)
    ensures var t := Decide(cfg, clock, counter, net);
      && t.outcome.QuietSkip? && (ExitCode(t.outcome) == 0 <==> QuietExitZero(cfg.exitZeroOnQuiet))
      && t.wakes == 0 && t.counter == counter && t.dataReads == 1
  {
  }

  /** Outside the quiet window, with a waking policy, a spent budget stops the
      run with exit code 0: no wake, and today's count is unchanged. */
  lemma BudgetSkipsWake(cfg: Config, clock: Clock, counter: Option<Counter>, net: Network)
    requires At(net.data, 0).Err?
    requires !QuietWindow.InQuietWindow(cfg.quietWindow, clock.tod) && PolicyWakes(cfg)
    requires Today(counter, clock) >= IntOrZero(cfg.maxWakePerDay)
    ensures var t := Decide(cfg, clock, counter, net);
      && t.outcome == BudgetSkip && ExitCode(t.outcome) == 0
      && t.wakes == 0 && t.dataReads == 1
      && t.counter == FileAfterLoad(counter, clock.today)
      && Today(t.counter, clock) == Today(counter, clock)
  {
    LoadIdempotent(counter, clock.today);
  }

  /** A failed first read that the quiet skip does not catch, under the policy
      "never", inside the quiet window, or under an unknown policy, is an error. */
  lemma PolicyForbidsWake(cfg: Config, clock: Clock, counter: Option<Counter>, net: Network)
    requires At(net.data, 0).Err?
    requires var quiet := QuietWindow.InQuietWindow(cfg.quietWindow, clock.tod);
      !(quiet && Unavailable(At(net.data, 0).error)) && (quiet || !PolicyWakes(cfg))
    ensures var t := Decide(cfg, clock, counter, net);
      && t.outcome == Failed(WakeNotAllowed) && ExitCode(t.outcome) == 1
      && t.wakes == 0 && t.counter == counter && t.dataReads == 1
  {
  }

  /** Any failed first read, "asleep" or not, leads to a wake when the window,
      the policy and the budget allow it. The counter is bumped once, after
      `wakeVehicle` returns, however many reads it took, and the vehicle is then
      read once more; if `wakeVehicle` throws, nothing is counted. */
  lemma WakeCycle(cfg: Config, clock: Clock, counter: Option<Counter>, net: Network)
    requires At(net.data, 0).Err?
    requires !QuietWindow.InQuietWindow(cfg.quietWindow, clock.tod) && PolicyWakes(cfg)
    requires Today(counter, clock) < IntOrZero(cfg.maxWakePerDay)
    ensures var t := Decide(cfg, clock, counter, net);
      var w := WakeVehicle(net.wakePost, Drop(net.data, 1));
      && t.wakes == 1
      && (w.result.Ok? ==>
            && t.counter == Some(IncWake(counter, clock.today))
            && Today(t.counter, clock) == Today(counter, clock) + 1
            && t.dataReads == 2 + w.attempts
            && (t.outcome.Logged? <==> At(net.data, 1 + w.attempts).Ok?)
            && (t.outcome.Logged? ==>
                  t.outcome.entry == Entry(At(net.data, 1 + w.attempts).value, true, clock.stamp, cfg.region)
                  && t.outcome.entry.awakeVia == "wake"))
      && (w.result.Err? ==>
            && t.outcome == Failed(ReadFailed(w.result.error))
            && Today(t.counter, clock) == Today(counter, clock)
            && t.dataReads == 1 + w.attempts)
  {
    var g := GatesOf(cfg, clock);
    assert !g.quiet && g.mayWake && g.maxWake == IntOrZero(cfg.maxWakePerDay) && g.region == cfg.region;
    WakeCycleBy(g, clock, counter, net);
  }

  /** `WakeCycle` stated on the gates the settings open. */
  lemma WakeCycleBy(g: Gates, clock: Clock, counter: Option<Counter>, net: Network)
    requires At(net.data, 0).Err? && !g.quiet && g.mayWake
    requires Today(counter, clock) < g.maxWake
    ensures var t := DecideBy(g, clock, counter, net);
      var w := WakeVehicle(net.wakePost, Drop(net.data, 1));
      && t.wakes == 1
      && (w.result.Ok? ==>
            && t.counter == Some(IncWake(counter, clock.today))
            && Today(t.counter, clock) == Today(counter, clock) + 1
            && t.dataReads == 2 + w.attempts
            && (t.outcome.Logged? <==> At(net.data, 1 + w.attempts).Ok?)
            && (t.outcome.Logged? ==>
                  t.outcome.entry == Entry(At(net.data, 1 + w.attempts).value, true, clock.stamp, g.region)))
      && (w.result.Err? ==>
            && t.outcome == Failed(ReadFailed(w.result.error))
            && Today(t.counter, clock) == Today(counter, clock)
            && t.dataReads == 1 + w.attempts)
  {
    IncAfterLoad(counter, clock.today);
    LoadIdempotent(counter, clock.today);
  }

  /** Per run, today's count either stays or goes up by one; it goes up only
      through a wake the budget allowed, so a count within the budget stays
      within it, and an entry says "wake" exactly when the count went up. */
  lemma CounterDiscipline(cfg: Config, clock: Clock, counter: Option<Counter>, net: Network)
    ensures var t := Decide(cfg, clock, counter, net);
      && (Today(t.counter, clock) == Today(counter, clock)
          || (&& Today(t.counter, clock) == Today(counter, clock) + 1
              && t.wakes == 1
              && Today(counter, clock) < IntOrZero(cfg.maxWakePerDay)))
      && (t.wakes == 0 ==> Today(t.counter, clock) == Today(counter, clock))
      && (t.outcome.Logged? ==>
            (t.outcome.entry.awakeVia == "wake" <==> Today(t.counter, clock) == Today(counter, clock) + 1))
  {
    var quiet := QuietWindow.InQuietWindow(cfg.quietWindow, clock.tod);
    var t := Decide(cfg, clock, counter, net);
    LoadIdempotent(counter, clock.today);
    if At(net.data, 0).Err? && !(quiet && Unavailable(At(net.data, 0).error))
       && !quiet && PolicyWakes(cfg) && Today(counter, clock) < IntOrZero(cfg.maxWakePerDay) {
      WakeCycle(cfg, clock, counter, net);
    }
  }

  /** The "always" policy behaves exactly like "onfail": a wake is only ever
      considered after a failed read. */
  lemma AlwaysIsOnFail(cfg: Config, clock: Clock, counter: Option<Counter>, net: Network)
    requires cfg.wakePolicy == "always"
    ensures Decide(cfg, clock, counter, net) == Decide(cfg.(wakePolicy := "onfail"), clock, counter, net)
  {
    assert GatesOf(cfg, clock) == GatesOf(cfg.(wakePolicy := "onfail"), clock);
  }

  // ---------------------------------------------------------------------------
  // Runs across one day
  // ---------------------------------------------------------------------------

  /** One scheduled invocation within a day: its clock readings and answers. */
  datatype Tick = Tick(now: int, tod: int, stamp: string, net: Network)

  /** Runs the ticks of one day in order, each seeing the files the previous
      left; yields the final files and how many runs bumped the counter. */
  function RunDay(cfg: Config, today: string, files: Files, ticks: seq<Tick>): (Files, nat)
    decreases |ticks|
  {
    if |ticks| == 0 then (files, 0)
    else
      var k := ticks[0];
      var clock := Clock(k.now, k.tod, today, k.stamp);
      var r := RunOnce(cfg, clock, files, k.net);
      var (last, counted) := RunDay(cfg, today, Files(r.tokens, r.counter), ticks[1..]);
      var bumped := if GetWakeState(r.counter, today).count > GetWakeState(files.counter, today).count then 1 else 0;
      (last, counted + bumped)
  }

  /** Over any number of runs on one day, today's count grows by exactly the
      number of counted wakes, and those never take it past MAX_WAKE_PER_DAY
      (or past where it already stood). */
  lemma {:induction false} DailyBudgetHolds(cfg: Config, today: string, files: Files, ticks: seq<Tick>)
    ensures var (last, counted) := RunDay(cfg, today, files, ticks);
      var before := GetWakeState(files.counter, today).count;
      var max := IntOrZero(cfg.maxWakePerDay);
      && GetWakeState(last.counter, today).count == before + counted
      && (before <= max ==> GetWakeState(last.counter, today).count <= max)
      && (before >= max ==> counted == 0)
    decreases |ticks|
  {
    if |ticks| > 0 {
      var k := ticks[0];
      var clock := Clock(k.now, k.tod, today, k.stamp);
      var r := RunOnce(cfg, clock, files, k.net);
      CounterDiscipline(cfg, clock, files.counter, k.net);
      DailyBudgetHolds(cfg, today, Files(r.tokens, r.counter), ticks[1..]);
    }
  }

  // ---------------------------------------------------------------------------
  // Worked scenarios
  // ---------------------------------------------------------------------------

  /** The error text of a sleeping vehicle. */
  const AsleepText: string := "vehicle unavailable"

  lemma AsleepTextIsUnavailable()
    ensures Unavailable(AsleepText)
  {
    assert Lower(AsleepText) == AsleepText;
    assert AsleepText <= Lower(AsleepText)[0..];
  }

  /** At most two wakes a day, two already made today, the vehicle asleep:
      the run stops without a wake request and the counter stays at two. */
  lemma QuotaScenario(cfg: Config, clock: Clock, net: Network)
    requires cfg.maxWakePerDay == "2" && cfg.wakePolicy == "onfail"
    requires !QuietWindow.InQuietWindow(cfg.quietWindow, clock.tod)
    requires At(net.data, 0) == Err(AsleepText)
    ensures var t := Decide(cfg, clock, Some(Counter(clock.today, 2)), net);
      && t.outcome == BudgetSkip && ExitCode(t.outcome) == 0
      && t.wakes == 0 && t.counter == Some(Counter(clock.today, 2))
  {
    var c := Some(Counter(clock.today, 2));
    assert "2" == "2" + "";
    ParseIntOfDigits("2", "");
    assert Today(c, clock) == 2;
    BudgetSkipsWake(cfg, clock, c, net);
  }

  /** Asleep on the first read and on three reads after the wake request
      (any error text the logger takes for sleep, `AsleepText` for one),
      awake on the fourth: the entry comes from the read after that, marked as
      obtained by a wake, after four polled reads, and today's count goes up
      by one. */
  lemma AwakeOnFourthScenario(cfg: Config, clock: Clock, counter: Option<Counter>, net: Network,
                              asleep: string, polled: Snapshot, reread: Snapshot)
    requires Unavailable(asleep)
    requires cfg.wakePolicy == "onfail"
    requires !QuietWindow.InQuietWindow(cfg.quietWindow, clock.tod)
    requires Today(counter, clock) < IntOrZero(cfg.maxWakePerDay)
    requires |net.data| == 6 && forall i | 0 <= i < 4 :: net.data[i] == Err(asleep)
    requires net.data[4] == Ok(polled) && net.data[5] == Ok(reread)
    ensures WakeVehicle(net.wakePost, Drop(net.data, 1)).attempts == 4
    ensures var t := Decide(cfg, clock, counter, net);
      && t.outcome == Logged(Entry(reread, true, clock.stamp, cfg.region))
      && t.wakes == 1 && t.dataReads == 6
      && Today(t.counter, clock) == Today(counter, clock) + 1
  {
    assert Drop(net.data, 1) == net.data[1..];
    AwakeAfterAsleep(net.wakePost, net.data[1..], asleep, 3, polled);
    assert At(net.data, 5) == Ok(reread);
    WakeCycle(cfg, clock, counter, net);
  }

  /** Asleep on every read: the wake series makes all seven reads, the last
      one's error ends the run as a failure, and the counter is not bumped. */
  lemma AsleepThroughoutScenario(cfg: Config, clock: Clock, counter: Option<Counter>, net: Network,
                                 asleep: string)
    requires Unavailable(asleep)
    requires cfg.wakePolicy == "onfail"
    requires !QuietWindow.InQuietWindow(cfg.quietWindow, clock.tod)
    requires Today(counter, clock) < IntOrZero(cfg.maxWakePerDay)
    requires |net.data| == 8 && forall i | 0 <= i < 8 :: net.data[i] == Err(asleep)
    ensures WakeVehicle(net.wakePost, Drop(net.data, 1)).attempts == PolledReads + 1
    ensures var t := Decide(cfg, clock, counter, net);
      && t.outcome == Failed(ReadFailed(asleep))
      && t.wakes == 1 && Today(t.counter, clock) == Today(counter, clock)
  {
    assert Drop(net.data, 1) == net.data[1..];
    AsleepSeries(net.wakePost, net.data[1..], asleep);
    WakeCycle(cfg, clock, counter, net);
  }
}

=== FILE: prune.dfy ===
/** tools/prune_log.mjs: rewrite the log keeping only the lines whose
    timestamp falls within the last N days. */
module Prune {
  import opened Wrappers
  import opened Text
  import opened Seqs
  import opened SocLog

  /** The retention argument used when none is given. */
  const DefaultDays: string := "30"

  /** `Date.now() - days * 24 * 60 * 60 * 1000` with `days` the second
      argument ("30" when missing) read by `parseInt`; `None` stands for NaN. */
  function Cutoff(now: int, arg: string): (c: Option<int>)
    ensures c.Some? <==> ParseInt(if arg == "" then DefaultDays else arg).Some?
    ensures c.Some? ==> c.value == now - ParseInt(if arg == "" then DefaultDays else arg).value * MsDay
    ensures arg == "" ==> c == Some(now - 30 * MsDay)
  {
    assert DefaultDays == "30" + "";
    ParseIntOfDigits("30", "");
    match ParseInt(if arg == "" then DefaultDays else arg)
    case Some(d) => Some(now - d * MsDay)
    case None => None
  }

  /** A line survives when it is not blank, parses, carries a valid `ts`, and
      that instant is not before the cutoff. A NaN cutoff keeps nothing. */
  predicate Keep(line: string, parse: Parser, cutoff: Option<int>) {
    && line != ""
    && parse(line).Some?
    && parse(line).value.time.Some?
    && cutoff.Some?
    && parse(line).value.time.value >= cutoff.value
  }

  /** `Keep` as the test handed to the filter. */
  function Survives(parse: Parser, cutoff: Option<int>): string -> bool {
    l => Keep(l, parse, cutoff)
  }

  /** The trimmed lines that survive, in file order. */
  function Kept(text: string, parse: Parser, cutoff: Option<int>): (r: seq<string>)
    ensures forall l :: l in r <==> l in Lines(text) && Keep(l, parse, cutoff)
  {
    Filter(Lines(text), Survives(parse, cutoff))
  }

  /** Every surviving line is a single, trimmed, non-blank line. */
  lemma KeptAreLines(text: string, parse: Parser, cutoff: Option<int>)
    ensures var r := Kept(text, parse, cutoff);
      forall i | 0 <= i < |r| :: '\n' !in r[i] && Trimmed(r[i]) && r[i] != ""
  {
    var ls := Lines(text);
    var r := Kept(text, parse, cutoff);
    LinesAreTrimmed(text);
    forall i | 0 <= i < |r| ensures '\n' !in r[i] && Trimmed(r[i]) && r[i] != "" {
      assert r[i] in r;
      var k :| 0 <= k < |ls| && ls[k] == r[i];
    }
  }

  /** `out.join("\n") + (out.length ? "\n" : "")`. */
  function Render(lines: seq<string>): (t: string)
    ensures |lines| == 0 <==> t == ""
    ensures |lines| > 0 ==> t[|t| - 1] == '\n'
  {
    if |lines| == 0 then "" else Join(lines, "\n") + "\n"
  }

  /** The pruned file: `None` when the file cannot be read, in which case
      nothing is written; otherwise the text written back. */
  function PruneLog(file: Option<string>, parse: Parser, cutoff: Option<int>): (r: Option<string>)
    ensures r.Some? <==> file.Some?
    // The output is empty exactly when no line survives, and otherwise ends
    // with a line feed ...
    ensures r.Some? ==> (r.value == "" <==> |Kept(file.value, parse, cutoff)| == 0)
    ensures r.Some? && r.value != "" ==> r.value[|r.value| - 1] == '\n'
    // ... and its lines are exactly the surviving lines, in order, each once.
    ensures r.Some? && r.value != "" ==> Split(r.value) == Kept(file.value, parse, cutoff) + [""]
  {
    match file
    case None => None
    case Some(text) =>
      var kept := Kept(text, parse, cutoff);
      assert |kept| > 0 ==> Split(Render(kept)) == kept + [""] by {
        if |kept| > 0 {
          KeptAreLines(text, parse, cutoff);
          SplitJoinLines(kept);
        }
      }
      Some(Render(kept))
  }

  /** Relative order is kept: the survivors of a file made of two parts are
      the survivors of the first part followed by those of the second. */
  lemma OrderKept(first: string, second: string, parse: Parser, cutoff: Option<int>)
    ensures Kept(first + "\n" + second, parse, cutoff)
            == Kept(first, parse, cutoff) + Kept(second, parse, cutoff)
  {
    LinesAppend(first, second);
    FilterAppend(Lines(first), Lines(second), Survives(parse, cutoff));
  }

  /** Reading the rendered survivors back gives them again, then the empty
      piece after the final line feed. */
  lemma RenderedLines(kept: seq<string>)
    requires forall i | 0 <= i < |kept| :: '\n' !in kept[i] && Trimmed(kept[i])
    ensures Lines(Render(kept)) == kept + [""]
  {
    if |kept| == 0 {
      assert Split("") == [""];
      TrimAllFixed([""]);
    } else {
      SplitJoinLines(kept);
      TrimAllFixed(kept + [""]);
    }
  }

  /** Pruning again with the same cutoff changes nothing. */
  lemma PruneIdempotent(text: string, parse: Parser, cutoff: Option<int>)
    ensures PruneLog(PruneLog(Some(text), parse, cutoff), parse, cutoff) == PruneLog(Some(text), parse, cutoff)
  {
    var kept := Kept(text, parse, cutoff);
    KeptAreLines(text, parse, cutoff);
    forall i | 0 <= i < |kept| ensures Keep(kept[i], parse, cutoff) {
      assert kept[i] in kept;
    }
    KeptOfRender(kept, parse, cutoff);
  }

  /** Rendering surviving lines and filtering the result again gives them back. */
  lemma KeptOfRender(kept: seq<string>, parse: Parser, cutoff: Option<int>)
    requires forall i | 0 <= i < |kept| :: '\n' !in kept[i] && Trimmed(kept[i])
    requires forall i | 0 <= i < |kept| :: Keep(kept[i], parse, cutoff)
    ensures Kept(Render(kept), parse, cutoff) == kept
  {
    var keep := Survives(parse, cutoff);
    RenderedLines(kept);
    FilterAppend(kept, [""], keep);
    FilterAllPass(kept, keep);
    FilterNone([""], keep);
  }

  /** A retention argument that is not a number makes the cutoff NaN, and the
      whole log is emptied. */
  lemma NaNCutoffEmptiesLog(text: string, parse: Parser)
    ensures PruneLog(Some(text), parse, None) == Some("")
  {
    FilterNone(Lines(text), Survives(parse, None));
  }
}

=== FILE: quiet_window.dfy ===
/** The quiet window of index.mjs: a "HH:MM-HH:MM" setting read as two minutes of
    the day, and the half-open check `start <= tod < end` that may wrap past
    midnight. A setting that does not parse means "never quiet". */
module QuietWindow {
  import opened Wrappers
  import opened Text

  const MinutesPerDay: int := 1440

  /** The default QUIET_WINDOW setting. */
  const DefaultSetting: string := "00:00-07:30"

  /** Start and end as minutes of the day. Hours and minutes are not range
      checked by the parser, so either may exceed a day. */
  datatype Window = Window(start: int, end: int)

  /** The value of two ASCII digits. */
  function TwoDigits(hi: char, lo: char): (n: nat)
    requires IsDigit(hi) && IsDigit(lo)
    ensures n < 100
  {
    (hi as int - '0' as int) * 10 + (lo as int - '0' as int)
  }

  /** The regular expression `^(\d{2}):(\d{2})-(\d{2}):(\d{2})$`. */
  predicate Shaped(t: string) {
    && |t| == 11
    && IsDigit(t[0]) && IsDigit(t[1]) && t[2] == ':' && IsDigit(t[3]) && IsDigit(t[4])
    && t[5] == '-'
    && IsDigit(t[6]) && IsDigit(t[7]) && t[8] == ':' && IsDigit(t[9]) && IsDigit(t[10])
  }

  /** The match of the pattern against an already trimmed setting:
      start = 60*h1 + m1 and end = 60*h2 + m2. */
  function ParseTrimmed(t: string): (r: Option<Window>)
    ensures r.Some? <==> Shaped(t)
    ensures r.Some? ==> 0 <= r.value.start <= 99 * 60 + 99 && 0 <= r.value.end <= 99 * 60 + 99
    // Each end is 60 times its hour field plus its minute field, read as
    // decimal numbers and not range checked.
    ensures r.Some? ==>
      r.value.start == Field(t, 0) * 60 + Field(t, 3) && r.value.end == Field(t, 6) * 60 + Field(t, 9)
  {
    if Shaped(t) then
      Some(Window(TwoDigits(t[0], t[1]) * 60 + TwoDigits(t[3], t[4]),
                  TwoDigits(t[6], t[7]) * 60 + TwoDigits(t[9], t[10])))
    else None
  }

  /** The decimal value of the two-digit field of `t` at `i`, as `Number`
      reads it. */
  function Field(t: string, i: nat): (n: nat)
    requires i + 2 <= |t| && IsDigit(t[i]) && IsDigit(t[i + 1])
    ensures n == TwoDigits(t[i], t[i + 1])
  {
    var f := t[i..i + 2];
    assert f[..|f| - 1] == [t[i]] && f[|f| - 1] == t[i + 1];
    assert [t[i]][..0] == [];
    assert DigitsValue([t[i]]) == t[i] as int - '0' as int;
    DigitsValue(f)
  }

  /** `parseQuietWindow`: the setting is trimmed, then must match the pattern
      exactly. */
  function Parse(s: string): (r: Option<Window>)
    ensures r.Some? <==> Shaped(Trim(s))
    ensures r.Some? ==> 0 <= r.value.start <= 99 * 60 + 99 && 0 <= r.value.end <= 99 * 60 + 99
    ensures r.Some? ==> var t := Trim(s);
      r.value.start == Field(t, 0) * 60 + Field(t, 3) && r.value.end == Field(t, 6) * 60 + Field(t, 9)
  {
    var t := Trim(s);
    ParseTrimmed(t)
  }

  /** `minutesOfDay`: hours and minutes of a local clock reading. */
  function MinutesOfDay(hours: int, minutes: int): (tod: int)
    requires 0 <= hours < 24 && 0 <= minutes < 60
    ensures 0 <= tod < MinutesPerDay
    ensures tod / 60 == hours && tod % 60 == minutes
  {
    hours * 60 + minutes
  }

  /** The window check proper, once the setting has parsed. */
  predicate InWindow(w: Window, tod: int) {
    if w.start <= w.end then w.start <= tod < w.end
    else tod >= w.start || tod < w.end
  }

  /** `inQuietWindow`: quiet only when the setting parses and `tod` lies in it. */
  predicate InQuietWindow(setting: string, tod: int) {
    match Parse(setting)
    case None => false
    case Some(w) => InWindow(w, tod)
  }

  /** A malformed setting fails open: no time of day is quiet. */
  lemma MalformedNeverQuiet(setting: string, tod: int)
    requires !Shaped(Trim(setting))
    ensures !InQuietWindow(setting, tod)
  {
  }

  // ---------------------------------------------------------------------------
  // An independent reading of the window: a clockwise arc on the 24-hour dial
  // ---------------------------------------------------------------------------

  predicate ValidWindow(w: Window) {
    0 <= w.start < MinutesPerDay && 0 <= w.end < MinutesPerDay
  }

  /** Clockwise distance on the dial from minute `a` to minute `b`. */
  function Clockwise(a: int, b: int): (d: int)
    ensures 0 <= d < MinutesPerDay
  {
    (b - a) % MinutesPerDay
  }

  lemma ClockwiseSmall(a: int, b: int)
    requires 0 <= a < MinutesPerDay && 0 <= b < MinutesPerDay
    ensures Clockwise(a, b) == if a <= b then b - a else b - a + MinutesPerDay
  {
    var x := b - a;
    if x < 0 {
      assert x + MinutesPerDay == (x + MinutesPerDay) % MinutesPerDay;
    }
  }

  /** The window is the arc swept clockwise from `start` up to, not including,
      `end`: `tod` is quiet exactly when it is reached from `start` sooner than
      `end` is. So `start == end` is never quiet and `end` itself never is. */
  lemma InWindowIsArc(w: Window, tod: int)
    requires ValidWindow(w) && 0 <= tod < MinutesPerDay
    ensures InWindow(w, tod) <==> Clockwise(w.start, tod) < Clockwise(w.start, w.end)
  {
    ClockwiseSmall(w.start, tod);
    ClockwiseSmall(w.start, w.end);
  }

  /** Swapping the ends of a non-empty window gives its complement on the dial. */
  lemma SwapIsComplement(w: Window, tod: int)
    requires w.start != w.end
    ensures InWindow(Window(w.end, w.start), tod) <==> !InWindow(w, tod)
  {
  }

  /** For a setting that reads as a window of the dial, `inQuietWindow` is
      the clockwise arc from its start up to its end. */
  lemma QuietIsArc(setting: string, tod: int)
    requires Parse(setting).Some? && ValidWindow(Parse(setting).value)
    requires 0 <= tod < MinutesPerDay
    ensures var w := Parse(setting).value;
      InQuietWindow(setting, tod) <==> Clockwise(w.start, tod) < Clockwise(w.start, w.end)
  {
    InWindowIsArc(Parse(setting).value, tod);
  }

  /** The end minute of a window is never quiet; its start is quiet exactly
      when the window is not empty. */
  lemma QuietEdges(setting: string)
    requires Parse(setting).Some?
    ensures var w := Parse(setting).value;
      !InQuietWindow(setting, w.end) && (InQuietWindow(setting, w.start) <==> w.start != w.end)
  {
  }

  // ---------------------------------------------------------------------------
  // Round trip between a window and its "HH:MM-HH:MM" text
  // ---------------------------------------------------------------------------

  function Digit(n: int): (c: char)
    requires 0 <= n < 10
    ensures IsDigit(c)
  {
    ('0' as int + n) as char
  }

  /** Two-digit zero-padded rendering of `n`. */
  function Pad2(n: int): (s: string)
    requires 0 <= n < 100
    ensures |s| == 2 && IsDigit(s[0]) && IsDigit(s[1]) && TwoDigits(s[0], s[1]) == n
  {
    [Digit(n / 10), Digit(n % 10)]
  }

  function Clock(m: int): string
    requires 0 <= m < MinutesPerDay
  {
    Pad2(m / 60) + ":" + Pad2(m % 60)
  }

  /** The setting that describes a window of the 24-hour dial. */
  function Format(w: Window): string
    requires ValidWindow(w)
  {
    Clock(w.start) + "-" + Clock(w.end)
  }

  /** Every window of the dial is read back from its own setting, surrounded by
      any white space. */
  lemma ParseFormat(w: Window, pre: string, post: string)
    requires ValidWindow(w)
    requires forall i | 0 <= i < |pre| :: IsSpace(pre[i])
    requires forall i | 0 <= i < |post| :: IsSpace(post[i])
    ensures Parse(pre + Format(w) + post) == Some(w)
  {
    var f := Format(w);
    FormatFields(w);
    DigitNotSpace(f[0]);
    DigitNotSpace(f[10]);
    TrimPadding(pre, f, post);
  }

  /** The setting of a window has the expected shape, and its fields read
      back as the window's ends. */
  lemma FormatFields(w: Window)
    requires ValidWindow(w)
    ensures Shaped(Format(w)) && ParseTrimmed(Format(w)) == Some(w)
  {
    var a, b := Clock(w.start), Clock(w.end);
    ClockFields(w.start);
    ClockFields(w.end);
    var f := Format(w);
    assert f == a + "-" + b;
    assert f[0] == a[0] && f[1] == a[1] && f[3] == a[3] && f[4] == a[4];
    assert f[6] == b[0] && f[7] == b[1] && f[9] == b[3] && f[10] == b[4];
  }

  /** The clock text of a minute of the day is `DD:DD`, and its fields read
      back as that minute. */
  lemma ClockFields(m: int)
    requires 0 <= m < MinutesPerDay
    ensures var c := Clock(m);
      && |c| == 5 && c[2] == ':'
      && IsDigit(c[0]) && IsDigit(c[1]) && IsDigit(c[3]) && IsDigit(c[4])
      && TwoDigits(c[0], c[1]) * 60 + TwoDigits(c[3], c[4]) == m
  {
    var c := Clock(m);
    assert c[0..2] == Pad2(m / 60) && c[3..5] == Pad2(m % 60);
  }

  /** The readings of a setting with hours below 24 and minutes below 60 are
      exactly the dial's windows, and the setting is that window's text. */
  lemma FormatParse(s: string)
    requires Parse(s).Some?
    requires var t := Trim(s);
      TwoDigits(t[0], t[1]) < 24 && TwoDigits(t[3], t[4]) < 60
      && TwoDigits(t[6], t[7]) < 24 && TwoDigits(t[9], t[10]) < 60
    ensures ValidWindow(Parse(s).value)
    ensures Format(Parse(s).value) == Trim(s)
  {
    var t := Trim(s);
    assert Parse(s).value == Window(TwoDigits(t[0], t[1]) * 60 + TwoDigits(t[3], t[4]),
                                    TwoDigits(t[6], t[7]) * 60 + TwoDigits(t[9], t[10]));
    FormatShaped(t);
  }

  /** The same round trip stated on the trimmed text. */
  lemma FormatShaped(t: string)
    requires Shaped(t)
    requires TwoDigits(t[0], t[1]) < 24 && TwoDigits(t[3], t[4]) < 60
    requires TwoDigits(t[6], t[7]) < 24 && TwoDigits(t[9], t[10]) < 60
    ensures var w := Window(TwoDigits(t[0], t[1]) * 60 + TwoDigits(t[3], t[4]),
                            TwoDigits(t[6], t[7]) * 60 + TwoDigits(t[9], t[10]));
      ValidWindow(w) && Format(w) == t
  {
    ClockText(t[0], t[1], t[3], t[4]);
    ClockText(t[6], t[7], t[9], t[10]);
    assert t == [t[0], t[1], ':', t[3], t[4]] + "-" + [t[6], t[7], ':', t[9], t[10]];
  }

  /** Four digits of a time of day are that time's clock text. */
  lemma ClockText(h1: char, h2: char, m1: char, m2: char)
    requires IsDigit(h1) && IsDigit(h2) && IsDigit(m1) && IsDigit(m2)
    requires TwoDigits(h1, h2) < 24 && TwoDigits(m1, m2) < 60
    ensures 0 <= TwoDigits(h1, h2) * 60 + TwoDigits(m1, m2) < MinutesPerDay
    ensures Clock(TwoDigits(h1, h2) * 60 + TwoDigits(m1, m2)) == [h1, h2, ':', m1, m2]
  {
    PadTwoDigits(h1, h2);
    PadTwoDigits(m1, m2);
    ClockOf(TwoDigits(h1, h2), TwoDigits(m1, m2));
  }

  lemma ClockOf(h: int, m: int)
    requires 0 <= h < 24 && 0 <= m < 60
    ensures Clock(h * 60 + m) == Pad2(h) + ":" + Pad2(m)
  {
    assert (h * 60 + m) / 60 == h;
    assert (h * 60 + m) % 60 == m;
  }

  lemma PadTwoDigits(hi: char, lo: char)
    requires IsDigit(hi) && IsDigit(lo)
    ensures Pad2(TwoDigits(hi, lo)) == [hi, lo]
  {
  }

  // ---------------------------------------------------------------------------
  // The settings named by the logger's documentation
  // ---------------------------------------------------------------------------

  /** The default setting is quiet from midnight until 07:30 (exclusive). */
  lemma DefaultWindow()
    ensures Parse(DefaultSetting) == Some(Window(0, 7 * 60 + 30))
    ensures InQuietWindow(DefaultSetting, 0) && InQuietWindow(DefaultSetting, 7 * 60 + 29)
    ensures !InQuietWindow(DefaultSetting, 7 * 60 + 30)
  {
    TrimmedFixed(DefaultSetting);
    assert Parse(DefaultSetting) == Some(Window(0, 7 * 60 + 30));
  }

  /** A window that crosses midnight: "22:00-06:00" is quiet at 23:00 and 05:59,
      not at 06:00 nor at 12:00. */
  lemma MidnightWindow()
    ensures InQuietWindow("22:00-06:00", 23 * 60) && InQuietWindow("22:00-06:00", 5 * 60 + 59)
    ensures !InQuietWindow("22:00-06:00", 6 * 60) && !InQuietWindow("22:00-06:00", 12 * 60)
  {
    TrimmedFixed("22:00-06:00");
    assert Parse("22:00-06:00") == Some(Window(22 * 60, 6 * 60));
  }

  /** Fields are not range checked: "22:00-30:00" is accepted and ends at
      minute 1800, past the end of the day, so 23:00 is quiet and noon is not. */
  lemma UncheckedFields()
    ensures Parse("22:00-30:00") == Some(Window(22 * 60, 30 * 60))
    ensures InQuietWindow("22:00-30:00", 23 * 60) && !InQuietWindow("22:00-30:00", 12 * 60)
  {
    TrimmedFixed("22:00-30:00");
    assert Parse("22:00-30:00") == Some(Window(22 * 60, 30 * 60));
  }
}

=== FILE: seqs.dfy ===
/** Order-preserving filters and sums over sequences, shared by the log tools. */
module Seqs {
  import opened Wrappers

  /** `xs.filter(keep)`: the elements that pass, in their original order. */
  function Filter<T(!new)>(xs: seq<T>, keep: T -> bool): (r: seq<T>)
    ensures |r| <= |xs|
    ensures forall x :: x in r <==> x in xs && keep(x)
    decreases |xs|
  {
    if |xs| == 0 then []
    else (if keep(xs[0]) then [xs[0]] else []) + Filter(xs[1..], keep)
  }

  /** Filtering distributes over concatenation, so relative order is kept. */
  lemma {:induction false} FilterAppend<T(!new)>(xs: seq<T>, ys: seq<T>, keep: T -> bool)
    ensures Filter(xs + ys, keep) == Filter(xs, keep) + Filter(ys, keep)
    decreases |xs|
  {
    if |xs| == 0 {
      assert xs + ys == ys;
    } else {
      assert (xs + ys)[1..] == xs[1..] + ys;
      FilterAppend(xs[1..], ys, keep);
    }
  }

  /** A sequence whose elements all pass is its own filter. */
  lemma {:induction false} FilterAllPass<T(!new)>(xs: seq<T>, keep: T -> bool)
    requires forall i | 0 <= i < |xs| :: keep(xs[i])
    ensures Filter(xs, keep) == xs
    decreases |xs|
  {
    if |xs| > 0 {
      FilterAllPass(xs[1..], keep);
    }
  }

  /** A test nothing passes keeps nothing. */
  lemma {:induction false} FilterNone<T(!new)>(xs: seq<T>, keep: T -> bool)
    requires forall i | 0 <= i < |xs| :: !keep(xs[i])
    ensures Filter(xs, keep) == []
    decreases |xs|
  {
    if |xs| > 0 {
      FilterNone(xs[1..], keep);
    }
  }

  /** Every element lands in exactly one of the two filters by a test and its
      negation. */
  lemma {:induction false} FilterPartition<T(!new)>(xs: seq<T>, keep: T -> bool, other: T -> bool)
    requires forall x :: other(x) == !keep(x)
    ensures |Filter(xs, keep)| + |Filter(xs, other)| == |xs|
    decreases |xs|
  {
    if |xs| > 0 {
      FilterPartition(xs[1..], keep, other);
    }
  }

  /** The present values of a sequence of options, in order. */
  function Somes<T(!new)>(xs: seq<Option<T>>): (r: seq<T>)
    ensures |r| <= |xs|
    ensures forall x :: x in r <==> Some(x) in xs
    // Each value occurs as often as it is present.
    ensures forall x :: multiset(r)[x] == multiset(xs)[Some(x)]
    decreases |xs|
  {
    if |xs| == 0 then []
    else
      assert xs == [xs[0]] + xs[1..];
      (if xs[0].Some? then [xs[0].value] else []) + Somes(xs[1..])
  }

  function Sum(xs: seq<int>): int
    decreases |xs|
  {
    if |xs| == 0 then 0 else xs[0] + Sum(xs[1..])
  }

  lemma {:induction false} SumNonNegative(xs: seq<int>)
    requires forall i | 0 <= i < |xs| :: xs[i] >= 0
    ensures Sum(xs) >= 0
    decreases |xs|
  {
    if |xs| > 0 {
      SumNonNegative(xs[1..]);
    }
  }
}

=== FILE: soc_log.dfy ===
/** The state-of-charge log as the offline tools read it (analyze.mjs
    `loadPoints`): one JSON object per line, blank and malformed lines skipped,
    error entries and entries without a numeric `soc_percent` dropped, the rest
    sorted by timestamp. JSON and date parsing are inputs. */
module SocLog {
  import opened Wrappers
  import opened Text
  import opened Seqs

  /** A day in milliseconds, the unit of both tools' retention windows. */
  const MsDay: int := 24 * 60 * 60 * 1000

  /** What the tools read from one parsed line: `ts` as written, `time` the
      epoch milliseconds of `new Date(ts)` (`None` when that is an invalid
      date), whether `error` is truthy, `soc_percent` when it is a number, and
      whether `is_charging` is truthy. */
  datatype Record = Record(ts: string, time: Option<int>, hasError: bool,
                           soc: Option<int>, charging: bool)

  /** `JSON.parse` of a trimmed line: `None` when the line is not JSON or not
      an object. */
  type Parser = string -> Option<Record>

  /** A reading the analysis works on. */
  datatype Point = Point(ts: string, time: Option<int>, soc: int, charging: bool)

  /** Each piece trimmed. */
  function TrimAll(xs: seq<string>): (r: seq<string>)
    ensures |r| == |xs|
    decreases |xs|
  {
    if |xs| == 0 then [] else [Trim(xs[0])] + TrimAll(xs[1..])
  }

  lemma {:induction false} TrimAllAt(xs: seq<string>, i: nat)
    requires i < |xs|
    ensures TrimAll(xs)[i] == Trim(xs[i])
    decreases i
  {
    if i > 0 {
      TrimAllAt(xs[1..], i - 1);
    }
  }

  /** Pieces that are already trimmed are left as they are. */
  lemma {:induction false} TrimAllFixed(xs: seq<string>)
    requires forall i | 0 <= i < |xs| :: Trimmed(xs[i])
    ensures TrimAll(xs) == xs
    decreases |xs|
  {
    if |xs| > 0 {
      TrimmedFixed(xs[0]);
      TrimAllFixed(xs[1..]);
    }
  }

  lemma {:induction false} TrimAllAppend(xs: seq<string>, ys: seq<string>)
    ensures TrimAll(xs + ys) == TrimAll(xs) + TrimAll(ys)
    decreases |xs|
  {
    if |xs| > 0 {
      assert (xs + ys)[1..] == xs[1..] + ys;
      TrimAllAppend(xs[1..], ys);
    } else {
      assert xs + ys == ys;
    }
  }

  /** The trimmed lines of a file (splitting on "\n" and trimming gives the
      same pieces as splitting on /\r?\n/ and trimming, since "\r" is white
      space). */
  function Lines(text: string): (r: seq<string>)
    ensures |r| == |Split(text)|
  {
    TrimAll(Split(text))
  }

  /** Each line is the trimmed piece of the text between line feeds, a single
      line that trimming leaves as it is. */
  lemma LinesAreTrimmed(text: string)
    ensures forall i | 0 <= i < |Lines(text)| ::
      && Lines(text)[i] == Trim(Split(text)[i])
      && '\n' !in Lines(text)[i] && Trimmed(Lines(text)[i])
  {
    var pieces := Split(text);
    forall i | 0 <= i < |pieces|
      ensures Lines(text)[i] == Trim(pieces[i])
      ensures '\n' !in Lines(text)[i] && Trimmed(Lines(text)[i])
    {
      TrimAllAt(pieces, i);
      TrimKeepsNoNewline(pieces[i]);
    }
  }

  /** The lines of two texts joined by a line feed are the lines of each. */
  lemma LinesAppend(x: string, y: string)
    ensures Lines(x + "\n" + y) == Lines(x) + Lines(y)
  {
    SplitAppend(x, y);
    TrimAllAppend(Split(x), Split(y));
  }

  /** The reading one trimmed line contributes, if any. */
  function PointOf(line: string, parse: Parser): (r: Option<Point>)
    // Blank lines, unparsable lines, error entries and entries without a
    // numeric state of charge contribute nothing ...
    ensures r.Some? <==>
      line != "" && parse(line).Some? && !parse(line).value.hasError && parse(line).value.soc.Some?
    // ... and every other line contributes its own fields.
    ensures r.Some? ==> var j := parse(line).value;
      r.value == Point(j.ts, j.time, j.soc.value, j.charging)
  {
    if line == "" then None
    else match parse(line)
      case None => None
      case Some(j) =>
        if j.hasError || j.soc.None? then None
        else Some(Point(j.ts, j.time, j.soc.value, j.charging))
  }

  /** Each trimmed line's reading, if any, in file order. */
  function Candidates(text: string, parse: Parser): (r: seq<Option<Point>>)
    ensures |r| == |Lines(text)|
    ensures forall i | 0 <= i < |r| :: r[i] == PointOf(Lines(text)[i], parse)
  {
    var ls := Lines(text);
    seq(|ls|, i requires 0 <= i < |ls| => PointOf(ls[i], parse))
  }

  /** The readings of a file, in file order. */
  function Readings(text: string, parse: Parser): (r: seq<Point>)
    ensures |r| <= |Lines(text)|
  {
    Somes(Candidates(text, parse))
  }

  /** A reading comes from a line of the file, and every line that yields a
      reading is represented. */
  lemma ReadingOrigin(text: string, parse: Parser, p: Point)
    ensures p in Readings(text, parse) <==>
      exists i | 0 <= i < |Lines(text)| :: PointOf(Lines(text)[i], parse) == Some(p)
  {
    var c := Candidates(text, parse);
    if p in Readings(text, parse) {
      assert Some(p) in c;
      var i :| 0 <= i < |c| && c[i] == Some(p);
      assert PointOf(Lines(text)[i], parse) == Some(p);
    }
    if exists i | 0 <= i < |Lines(text)| :: PointOf(Lines(text)[i], parse) == Some(p) {
      var i :| 0 <= i < |Lines(text)| && PointOf(Lines(text)[i], parse) == Some(p);
      assert c[i] == Some(p);
    }
  }

  // ---------------------------------------------------------------------------
  // Sorting by timestamp
  // ---------------------------------------------------------------------------

  /** The comparator `new Date(a.ts) - new Date(b.ts)` does not put `a` after
      `b`. A NaN difference (an invalid date on either side) counts as 0. */
  predicate NotAfter(a: Point, b: Point) {
    a.time.None? || b.time.None? || a.time.value <= b.time.value
  }

  predicate AllTimed(s: seq<Point>) {
    forall i | 0 <= i < |s| :: s[i].time.Some?
  }

  /** Timestamps never decrease along the sequence. */
  predicate Chronological(s: seq<Point>) {
    forall i, j | 0 <= i < j < |s| :: s[i].time.Some? && s[j].time.Some? ==>
      s[i].time.value <= s[j].time.value
  }

  /** Rearranging a sequence keeps its timestamps valid. */
  lemma PermutedTimed(a: seq<Point>, b: seq<Point>)
    requires multiset(a) == multiset(b) && AllTimed(b)
    ensures AllTimed(a)
  {
    forall i | 0 <= i < |a| ensures a[i].time.Some? {
      assert a[i] in multiset(a);
      var j :| 0 <= j < |b| && b[j] == a[i];
    }
  }

  /** Readings drawn from timed readings are timed. */
  lemma SubTimed(a: seq<Point>, b: seq<Point>)
    requires AllTimed(b) && forall x | x in a :: x in b
    ensures AllTimed(a)
  {
    forall i | 0 <= i < |a| ensures a[i].time.Some? {
      assert a[i] in a;
      var j :| 0 <= j < |b| && b[j] == a[i];
    }
  }

  /** Insertion of `x` before the first element it does not come after. */
  function Insert(x: Point, s: seq<Point>): (r: seq<Point>)
    ensures multiset(r) == multiset(s) + multiset{x}
    decreases |s|
  {
    if |s| == 0 || NotAfter(x, s[0]) then [x] + s
    else
      assert s == [s[0]] + s[1..];
      [s[0]] + Insert(x, s[1..])
  }

  /** Every reading is timed no earlier than `lo`. */
  predicate NotBefore(s: seq<Point>, lo: int) {
    forall i | 0 <= i < |s| :: s[i].time.Some? && lo <= s[i].time.value
  }

  lemma {:induction false} InsertNotBefore(x: Point, s: seq<Point>, lo: int)
    requires x.time.Some? && lo <= x.time.value && NotBefore(s, lo)
    ensures NotBefore(Insert(x, s), lo)
    decreases |s|
  {
    if |s| > 0 && !NotAfter(x, s[0]) {
      InsertNotBefore(x, s[1..], lo);
    }
  }

  lemma {:induction false} InsertChronological(x: Point, s: seq<Point>)
    requires x.time.Some? && AllTimed(s) && Chronological(s)
    ensures Chronological(Insert(x, s))
    decreases |s|
  {
    if |s| > 0 && !NotAfter(x, s[0]) {
      InsertChronological(x, s[1..]);
      var rest := Insert(x, s[1..]);
      assert NotBefore(s[1..], s[0].time.value);
      InsertNotBefore(x, s[1..], s[0].time.value);
      var r := [s[0]] + rest;
      assert r == Insert(x, s);
      forall a, b | 0 <= a < b < |r|
        ensures r[a].time.Some? && r[b].time.Some? ==> r[a].time.value <= r[b].time.value
      {
        assert r[b] == rest[b - 1];
        if a > 0 {
          assert r[a] == rest[a - 1];
        }
      }
    }
  }

  /** An insertion sort by timestamp. With every timestamp valid the result
      is in time order; with an invalid timestamp the comparator is
      inconsistent and JavaScript leaves the order to the engine, of which
      this is one choice. */
  function SortByTime(s: seq<Point>): (r: seq<Point>)
    ensures multiset(r) == multiset(s)
    decreases |s|
  {
    if |s| == 0 then []
    else
      assert s == [s[0]] + s[1..];
      Insert(s[0], SortByTime(s[1..]))
  }

  /** Sorting readings with valid timestamps puts them in chronological order. */
  lemma {:induction false} SortIsChronological(s: seq<Point>)
    requires AllTimed(s)
    ensures Chronological(SortByTime(s))
    decreases |s|
  {
    if |s| > 0 {
      SortIsChronological(s[1..]);
      PermutedTimed(SortByTime(s[1..]), s[1..]);
      InsertChronological(s[0], SortByTime(s[1..]));
    }
  }

  /** A sequence already in order is left as it is. */
  lemma {:induction false} SortKeepsOrder(s: seq<Point>)
    requires AllTimed(s) && Chronological(s)
    ensures SortByTime(s) == s
    decreases |s|
  {
    if |s| > 0 {
      SortKeepsOrder(s[1..]);
      if |s| > 1 {
        assert NotAfter(s[0], s[1]);
      }
    }
  }

  datatype LoadError =
    | FileNotFound     // the file is missing or empty
    | TooFewReadings   // fewer than two readings survive the filter

  /** The readings put in time order: the same readings, chronological
      whenever every timestamp is valid. */
  function Sorted(pts: seq<Point>): (r: seq<Point>)
    ensures multiset(r) == multiset(pts)
    ensures AllTimed(r) ==> Chronological(r)
  {
    var sorted := SortByTime(pts);
    assert AllTimed(sorted) ==> Chronological(sorted) by {
      if AllTimed(sorted) {
        PermutedTimed(pts, sorted);
        SortIsChronological(pts);
      }
    }
    sorted
  }

  /** `loadPoints` past the existence check: `text` is a non-empty file. */
  function LoadText(text: string, parse: Parser): (r: Result<seq<Point>, LoadError>)
    // Loading fails exactly when fewer than two readings survive ...
    ensures r.Err? <==> |Readings(text, parse)| < 2
    ensures r.Err? ==> r.error == TooFewReadings
    // ... and succeeds with exactly those readings, in chronological order
    // whenever every timestamp is valid.
    ensures r.Ok? ==> |r.value| >= 2 && multiset(r.value) == multiset(Readings(text, parse))
    ensures r.Ok? && AllTimed(r.value) ==> Chronological(r.value)
  {
    var pts := Readings(text, parse);
    if |pts| < 2 then Err(TooFewReadings) else Ok(Sorted(pts))
  }

  /** `loadPoints`: `file` is the file's content, `None` when it cannot be
      read. A missing or empty file is an error of its own; any other file is
      loaded as `LoadText` says. */
  function LoadPoints(file: Option<string>, parse: Parser): (r: Result<seq<Point>, LoadError>)
    ensures file.None? || file == Some("") ==> r == Err(FileNotFound)
    ensures file.Some? && file.value != "" ==> r == LoadText(file.value, parse)
  {
    if file.None? || file.value == "" then Err(FileNotFound)
    else LoadText(file.value, parse)
  }

  /** Keeping the readings that pass any test keeps chronological order. */
  lemma {:induction false} FilterChronological(s: seq<Point>, keep: Point -> bool)
    requires Chronological(s)
    ensures Chronological(Filter(s, keep))
    decreases |s|
  {
    if |s| > 0 {
      FilterChronological(s[1..], keep);
      var rest := Filter(s[1..], keep);
      forall j | 0 <= j < |rest| ensures rest[j] in s[1..] {
        assert rest[j] in rest;
      }
    }
  }
}

=== FILE: text.dfy ===
/** The JavaScript string primitives the logger and its tools rely on:
    `trim`, ASCII case mapping, `includes`, `/^\d+$/`, `parseInt(_, 10)`,
    and splitting/joining on line breaks. */
module Text {
  import opened Wrappers

  // ---------------------------------------------------------------------------
  // Whitespace and trim
  // ---------------------------------------------------------------------------

  /** The WhiteSpace and LineTerminator code points that `String.prototype.trim`
      and `parseInt` strip. */
  predicate IsSpace(c: char) {
    || c == '\t' || c == '\n' || c == '\U{000B}' || c == '\U{000C}' || c == '\r'
    || c == ' ' || c == '\U{00A0}' || c == '\U{1680}'
    || ('\U{2000}' <= c <= '\U{200A}')
    || c == '\U{2028}' || c == '\U{2029}' || c == '\U{202F}' || c == '\U{205F}'
    || c == '\U{3000}' || c == '\U{FEFF}'
  }

  /** `trimStart`: drops the longest all-space prefix. */
  function TrimStart(s: string): (r: string)
    ensures |r| <= |s| && r == s[|s| - |r|..]
    ensures forall i | 0 <= i < |s| - |r| :: IsSpace(s[i])
    ensures r == [] || !IsSpace(r[0])
    decreases |s|
  {
    if |s| > 0 && IsSpace(s[0]) then TrimStart(s[1..]) else s
  }

  /** `trimEnd`: drops the longest all-space suffix. */
  function TrimEnd(s: string): (r: string)
    ensures |r| <= |s| && r == s[..|r|]
    ensures forall i | |r| <= i < |s| :: IsSpace(s[i])
    ensures r == [] || !IsSpace(r[|r| - 1])
    decreases |s|
  {
    if |s| > 0 && IsSpace(s[|s| - 1]) then TrimEnd(s[..|s| - 1]) else s
  }

  /** Neither starts nor ends with a space. */
  predicate Trimmed(s: string) {
    s == [] || (!IsSpace(s[0]) && !IsSpace(s[|s| - 1]))
  }

  /** `trim`: drops the space padding at both ends. */
  function Trim(s: string): (r: string)
    ensures |r| <= |s| && Trimmed(r)
  {
    TrimEnd(TrimStart(s))
  }

  /** What `trim` removes is space, and only from the two ends: the result is
      the infix of `s` after the leading spaces and before the trailing ones. */
  lemma TrimInfix(s: string)
    ensures |s| - |TrimStart(s)| + |Trim(s)| <= |s|
    ensures forall i | 0 <= i < |Trim(s)| :: Trim(s)[i] == s[|s| - |TrimStart(s)| + i]
    ensures forall i | 0 <= i < |s| - |TrimStart(s)| :: IsSpace(s[i])
    ensures forall i | |s| - |TrimStart(s)| + |Trim(s)| <= i < |s| :: IsSpace(s[i])
  {
    var a := TrimStart(s);
    var r := TrimEnd(a);
    var k := |s| - |a|;
    assert Trim(s) == r;
    assert a == s[k..] && r == a[..|r|];
    forall i | 0 <= i < |r| ensures r[i] == s[k + i] {
      assert r[i] == a[i];
    }
    forall i | k + |r| <= i < |s| ensures IsSpace(s[i]) {
      assert s[i] == a[i - k];
    }
  }

  lemma TrimStartFixed(s: string)
    requires s == [] || !IsSpace(s[0])
    ensures TrimStart(s) == s
  {
  }

  lemma TrimEndFixed(s: string)
    requires s == [] || !IsSpace(s[|s| - 1])
    ensures TrimEnd(s) == s
  {
  }

  /** Trimming leaves a trimmed string as it is. */
  lemma TrimmedFixed(s: string)
    requires Trimmed(s)
    ensures Trim(s) == s
  {
    TrimStartFixed(s);
    TrimEndFixed(s);
  }

  lemma DigitNotSpace(c: char)
    requires IsDigit(c)
    ensures !IsSpace(c)
  {
  }

  /** `trimStart` removes exactly a space prefix in front of a non-space. */
  lemma {:induction false} TrimStartPadding(pre: string, x: string)
    requires forall i | 0 <= i < |pre| :: IsSpace(pre[i])
    requires x == [] || !IsSpace(x[0])
    ensures TrimStart(pre + x) == x
    decreases |pre|
  {
    if |pre| == 0 {
      assert pre + x == x;
      TrimStartFixed(x);
    } else {
      assert (pre + x)[1..] == pre[1..] + x;
      TrimStartPadding(pre[1..], x);
    }
  }

  /** `trimEnd` removes exactly a space suffix after a non-space. */
  lemma {:induction false} TrimEndPadding(x: string, post: string)
    requires forall i | 0 <= i < |post| :: IsSpace(post[i])
    requires x == [] || !IsSpace(x[|x| - 1])
    ensures TrimEnd(x + post) == x
    decreases |post|
  {
    if |post| == 0 {
      assert x + post == x;
      TrimEndFixed(x);
    } else {
      assert (x + post)[..|x + post| - 1] == x + post[..|post| - 1];
      TrimEndPadding(x, post[..|post| - 1]);
    }
  }

  /** `trim` removes exactly the space padding around a core that neither
      starts nor ends with a space. */
  lemma TrimPadding(pre: string, core: string, post: string)
    requires |core| > 0 && !IsSpace(core[0]) && !IsSpace(core[|core| - 1])
    requires forall i | 0 <= i < |pre| :: IsSpace(pre[i])
    requires forall i | 0 <= i < |post| :: IsSpace(post[i])
    ensures Trim(pre + core + post) == core
  {
    assert pre + core + post == pre + (core + post);
    assert (core + post)[0] == core[0];
    TrimStartPadding(pre, core + post);
    TrimEndPadding(core, post);
  }

  /** Trimming twice is trimming once. */
  lemma TrimIdempotent(s: string)
    ensures Trim(Trim(s)) == Trim(s)
  {
    TrimmedFixed(Trim(s));
  }

  /** A line containing no line feed still contains none once trimmed. */
  lemma TrimKeepsNoNewline(s: string)
    requires '\n' !in s
    ensures '\n' !in Trim(s)
  {
    var r := Trim(s);
    var k := |s| - |TrimStart(s)|;
    TrimInfix(s);
    forall i | 0 <= i < |r| ensures r[i] != '\n' {
      assert s[k + i] in s;
    }
  }


  // ---------------------------------------------------------------------------
  // ASCII case mapping and substring search
  // ---------------------------------------------------------------------------

  function LowerChar(c: char): char {
    if 'A' <= c <= 'Z' then (c as int + 32) as char else c
  }

  function UpperChar(c: char): char {
    if 'a' <= c <= 'z' then (c as int - 32) as char else c
  }

  /** `toLowerCase`, restricted to the ASCII letters. */
  function Lower(s: string): (r: string)
    ensures |r| == |s|
    ensures forall i | 0 <= i < |s| :: r[i] == LowerChar(s[i])
  {
    seq(|s|, i requires 0 <= i < |s| => LowerChar(s[i]))
  }

  /** `toUpperCase`, restricted to the ASCII letters. */
  function Upper(s: string): (r: string)
    ensures |r| == |s|
    ensures forall i | 0 <= i < |s| :: r[i] == UpperChar(s[i])
  {
    seq(|s|, i requires 0 <= i < |s| => UpperChar(s[i]))
  }

  /** `s.includes(sub)`. */
  predicate Contains(s: string, sub: string) {
    exists i | 0 <= i <= |s| :: sub <= s[i..]
  }

  /** Case mapping works character by character, so it distributes over
      concatenation. */
  lemma LowerAppend(a: string, b: string)
    ensures Lower(a + b) == Lower(a) + Lower(b)
  {
    assert forall i | 0 <= i < |a + b| :: Lower(a + b)[i] == (Lower(a) + Lower(b))[i];
  }

  /** A text found in `s` is found in any text that quotes `s`. */
  lemma ContainsInfix(pre: string, s: string, post: string, sub: string)
    requires Contains(s, sub)
    ensures Contains(pre + s + post, sub)
  {
    var i :| 0 <= i <= |s| && sub <= s[i..];
    var w := pre + s + post;
    var j := |pre| + i;
    assert sub == s[i..i + |sub|];
    assert w[j..j + |sub|] == s[i..i + |sub|];
    assert sub <= w[j..];
  }

  /** The default order of `Array.prototype.sort` on strings: character by
      character, a proper prefix first. (JavaScript compares UTF-16 code units;
      on the ASCII keys sorted here the two orders agree.) */
  predicate Precedes(a: string, b: string)
    decreases |a|
  {
    if |a| == 0 then |b| > 0
    else if |b| == 0 then false
    else if a[0] != b[0] then a[0] < b[0]
    else Precedes(a[1..], b[1..])
  }

  lemma {:induction false} PrecedesIrreflexive(a: string)
    ensures !Precedes(a, a)
    decreases |a|
  {
    if |a| > 0 {
      PrecedesIrreflexive(a[1..]);
    }
  }

  /** Any two different strings are ordered one way or the other. */
  lemma {:induction false} PrecedesTotal(a: string, b: string)
    requires a != b
    ensures Precedes(a, b) || Precedes(b, a)
    decreases |a|
  {
    if |a| > 0 && |b| > 0 && a[0] == b[0] {
      assert a == [a[0]] + a[1..] && b == [b[0]] + b[1..];
      PrecedesTotal(a[1..], b[1..]);
    }
  }

  lemma {:induction false} PrecedesTransitive(a: string, b: string, c: string)
    requires Precedes(a, b) && Precedes(b, c)
    ensures Precedes(a, c)
    decreases |a|
  {
    if |a| > 0 && a[0] == b[0] && b[0] == c[0] {
      PrecedesTransitive(a[1..], b[1..], c[1..]);
    }
  }

  // ---------------------------------------------------------------------------
  // Decimal digits and parseInt
  // ---------------------------------------------------------------------------

  predicate IsDigit(c: char) {
    '0' <= c <= '9'
  }

  /** The regular expression `^\d+$`: one or more ASCII digits and nothing else. */
  predicate AllDigits(s: string) {
    |s| > 0 && forall i | 0 <= i < |s| :: IsDigit(s[i])
  }

  /** The value of a run of decimal digits, most significant first. */
  function DigitsValue(s: string): (n: nat)
    requires forall i | 0 <= i < |s| :: IsDigit(s[i])
  {
    if |s| == 0 then 0
    else
      assert IsDigit(s[|s| - 1]);
      DigitsValue(s[..|s| - 1]) * 10 + (s[|s| - 1] as int - '0' as int)
  }

  /** The longest prefix of `s` made of decimal digits. */
  function DigitPrefix(s: string): (d: string)
    ensures d <= s
    ensures forall i | 0 <= i < |d| :: IsDigit(d[i])
    ensures |d| < |s| ==> !IsDigit(s[|d|])
    decreases |s|
  {
    if |s| > 0 && IsDigit(s[0]) then [s[0]] + DigitPrefix(s[1..]) else []
  }

  /** `parseInt(s, 10)`, with `None` standing for `NaN`: leading white space is
      skipped, one optional sign is read, then the longest run of decimal digits;
      anything after that run is ignored. */
  function ParseInt(s: string): Option<int> {
    var t := TrimStart(s);
    var negative := |t| > 0 && t[0] == '-';
    var body := if |t| > 0 && (t[0] == '-' || t[0] == '+') then t[1..] else t;
    var d := DigitPrefix(body);
    if |d| == 0 then None
    else if negative then Some(-(DigitsValue(d) as int))
    else Some(DigitsValue(d))
  }

  /** `parseInt(s, 10) || 0`: `NaN` (and `-0`) become 0. */
  function IntOrZero(s: string): int {
    ParseInt(s).GetOr(0)
  }

  /** The digit prefix of a digit run followed by a non-digit is that run. */
  lemma {:induction false} DigitPrefixOf(d: string, rest: string)
    requires forall i | 0 <= i < |d| :: IsDigit(d[i])
    requires rest == [] || !IsDigit(rest[0])
    ensures DigitPrefix(d + rest) == d
    decreases |d|
  {
    if |d| > 0 {
      assert (d + rest)[1..] == d[1..] + rest;
      DigitPrefixOf(d[1..], rest);
    } else {
      assert d + rest == rest;
    }
  }

  /** `parseInt` reads exactly the leading digits of a string that starts with
      digits: "16" is 16, "16 wakes" is 16 too. */
  lemma ParseIntOfDigits(d: string, rest: string)
    requires AllDigits(d)
    requires rest == [] || !IsDigit(rest[0])
    ensures ParseInt(d + rest) == Some(DigitsValue(d))
  {
    assert (d + rest)[0] == d[0];
    TrimStartFixed(d + rest);
    DigitPrefixOf(d, rest);
  }

  /** A string with no digit anywhere parses to `NaN`, so `|| 0` yields 0. */
  lemma ParseIntNoDigits(s: string)
    requires forall i | 0 <= i < |s| :: !IsDigit(s[i])
    ensures ParseInt(s) == None
    ensures IntOrZero(s) == 0
  {
    var t := TrimStart(s);
    var body := if |t| > 0 && (t[0] == '-' || t[0] == '+') then t[1..] else t;
    if |body| > 0 {
      assert body[0] in s;
    }
  }

  // ---------------------------------------------------------------------------
  // Lines: split on "\n" and join with a separator
  // ---------------------------------------------------------------------------

  /** `s.split("\n")`: the maximal line-feed-free pieces of `s`, always at least one. */
  function Split(s: string): (r: seq<string>)
    ensures |r| >= 1
    ensures forall i | 0 <= i < |r| :: '\n' !in r[i]
    decreases |s|
  {
    if |s| == 0 then [""]
    else
      var rest := Split(s[1..]);
      if s[0] == '\n' then [""] + rest
      else [[s[0]] + rest[0]] + rest[1..]
  }

  /** `xs.join(sep)`. */
  function Join(xs: seq<string>, sep: string): string
    decreases |xs|
  {
    if |xs| == 0 then ""
    else if |xs| == 1 then xs[0]
    else xs[0] + sep + Join(xs[1..], sep)
  }

  /** Splitting then joining with "\n" gives the text back: no character is lost. */
  lemma {:induction false} JoinSplit(s: string)
    ensures Join(Split(s), "\n") == s
    decreases |s|
  {
    if |s| > 0 {
      var rest := Split(s[1..]);
      JoinSplit(s[1..]);
      if s[0] == '\n' {
        assert Split(s) == [""] + rest;
        assert ([""] + rest)[1..] == rest;
        assert s == "" + "\n" + s[1..];
      } else {
        var r := Split(s);
        assert r == [[s[0]] + rest[0]] + rest[1..];
        if |rest| == 1 {
          assert s[1..] == rest[0];
        } else {
          assert r[1..] == rest[1..];
          assert s[1..] == rest[0] + "\n" + Join(rest[1..], "\n");
          assert s == [s[0]] + s[1..];
        }
      }
    }
  }

  /** A line without a line feed is a single piece. */
  lemma {:induction false} SplitLine(x: string)
    requires '\n' !in x
    ensures Split(x) == [x]
    decreases |x|
  {
    if |x| > 0 {
      SplitLine(x[1..]);
      assert [x[0]] + x[1..] == x;
    }
  }

  /** A line feed after a line-feed-free prefix ends exactly one piece. */
  lemma {:induction false} SplitAfterLine(x: string, rest: string)
    requires '\n' !in x
    ensures Split(x + "\n" + rest) == [x] + Split(rest)
    decreases |x|
  {
    if |x| == 0 {
      assert x + "\n" + rest == "\n" + rest;
      assert ("\n" + rest)[1..] == rest;
    } else {
      assert (x + "\n" + rest)[1..] == x[1..] + "\n" + rest;
      SplitAfterLine(x[1..], rest);
      assert [x[0]] + x[1..] == x;
    }
  }

  /** Writing lines joined by "\n" with a final "\n" and splitting the text
      again yields the lines followed by one empty piece. */
  lemma {:induction false} SplitJoinLines(xs: seq<string>)
    requires |xs| > 0
    requires forall i | 0 <= i < |xs| :: '\n' !in xs[i]
    ensures Split(Join(xs, "\n") + "\n") == xs + [""]
    decreases |xs|
  {
    if |xs| == 1 {
      assert Join(xs, "\n") + "\n" == xs[0] + "\n" + "";
      SplitAfterLine(xs[0], "");
    } else {
      var tail := Join(xs[1..], "\n") + "\n";
      assert Join(xs, "\n") + "\n" == xs[0] + "\n" + tail;
      SplitAfterLine(xs[0], tail);
      SplitJoinLines(xs[1..]);
      assert xs == [xs[0]] + xs[1..];
    }
  }

  /** Splitting at a line feed splits the pieces. */
  lemma {:induction false} SplitAppend(x: string, y: string)
    ensures Split(x + "\n" + y) == Split(x) + Split(y)
    decreases |x|
  {
    if |x| == 0 {
      assert x + "\n" + y == "\n" + y;
      assert ("\n" + y)[1..] == y;
    } else {
      assert (x + "\n" + y)[1..] == x[1..] + "\n" + y;
      SplitAppend(x[1..], y);
    }
  }
}

=== FILE: tokens.dfy ===
/** The OAuth credential of index.mjs: loading the token file, deciding whether the
    access token must be refreshed, and the refresh-token grant's result with its
    60-second safety margin and refresh-token rotation. The token endpoint's
    answer is an input. */
module Tokens {
  import opened Wrappers

  /** The token file. An empty string stands for a missing (or empty, hence
      falsy) token; `expiresAt` is `None` when the field is missing, and a
      stored 0 is as falsy as a missing one. Times are epoch milliseconds. */
  datatype Credential = Credential(access: string, refresh: string, expiresAt: Option<int>)

  /** The token endpoint's answer: `access_token`, `refresh_token` ("" when not
      rotated) and `expires_in` in seconds (`None` when absent or not numeric). */
  datatype Grant = Grant(access: string, refresh: string, expiresIn: Option<int>)

  datatype AuthError =
    | MissingRefreshToken       // no token file, or no refresh token in it
    | RefreshFailed(message: string)  // the grant request itself failed

  /** The safety margin subtracted from every expiry. */
  const MarginMs: int := 60 * 1000

  /** The lifetime assumed when `expires_in` is zero or not a number. */
  const DefaultLifetime: int := 3600

  /** `getTokens`: the file must exist and hold a refresh token. */
  function GetTokens(file: Option<Credential>): (r: Result<Credential, AuthError>)
    ensures r.Ok? <==> file.Some? && file.value.refresh != ""
    ensures r.Ok? ==> r.value == file.value
    ensures r.Err? ==> r.error == MissingRefreshToken
  {
    if file.None? || file.value.refresh == "" then Err(MissingRefreshToken)
    else Ok(file.value)
  }

  /** The refresh condition of `getValidAccessToken`. */
  predicate NeedsRefresh(t: Credential, now: int) {
    || t.access == ""
    || t.expiresAt.None? || t.expiresAt.value == 0
    || now >= t.expiresAt.value
  }

  /** Once a credential needs refreshing it keeps needing it: the check
      only ever turns from valid to expired as time passes. */
  lemma StaysExpired(t: Credential, now: int, later: int)
    requires NeedsRefresh(t, now) && now <= later
    ensures NeedsRefresh(t, later)
  {
  }

  /** `Number(expires_in) || 3600`. */
  function Lifetime(g: Grant): (e: int)
    ensures e != 0
    ensures g.expiresIn.Some? && g.expiresIn.value != 0 ==> e == g.expiresIn.value
    ensures g.expiresIn.None? || g.expiresIn.value == 0 ==> e == DefaultLifetime
  {
    match g.expiresIn
    case Some(e) => if e != 0 then e else DefaultLifetime
    case None => DefaultLifetime
  }

  /** The record `refreshAccessToken` saves after a successful grant. */
  function Refreshed(t: Credential, g: Grant, now: int): (r: Credential)
    ensures r.access == g.access
    ensures r.refresh == if g.refresh != "" then g.refresh else t.refresh
    ensures r.expiresAt.Some? && r.expiresAt.value + MarginMs == now + Lifetime(g) * 1000
  {
    Credential(g.access,
           if g.refresh != "" then g.refresh else t.refresh,
           Some(now + Lifetime(g) * 1000 - MarginMs))
  }

  /** `refreshAccessToken`: re-reads the file, then runs the grant; a failed
      grant is not retried. */
  function RefreshAccessToken(file: Option<Credential>, grant: Result<Grant, string>, now: int)
    : (r: Result<Credential, AuthError>)
    ensures GetTokens(file).Err? ==> r == Err(MissingRefreshToken)
    ensures GetTokens(file).Ok? && grant.Err? ==> r == Err(RefreshFailed(grant.error))
    ensures GetTokens(file).Ok? && grant.Ok? ==> r == Ok(Refreshed(file.value, grant.value, now))
  {
    var t :- GetTokens(file);
    match grant
    case Err(msg) => Err(RefreshFailed(msg))
    case Ok(g) => Ok(Refreshed(t, g, now))
  }

  /** A usable access token, the credential as it now stands in the file, and
      whether a refresh grant was issued to obtain it. */
  datatype Session = Session(token: string, tokens: Credential, refreshed: bool)

  /** `getValidAccessToken`. */
  function GetValidAccessToken(file: Option<Credential>, now: int, grant: Result<Grant, string>)
    : (r: Result<Session, AuthError>)
    // A missing file or refresh token fails before any grant is attempted.
    ensures GetTokens(file).Err? ==> r == Err(MissingRefreshToken)
    // A grant is issued exactly when the stored token needs refreshing.
    ensures r.Ok? ==> (r.value.refreshed <==> NeedsRefresh(file.value, now))
    ensures r.Ok? && !r.value.refreshed ==>
      r.value.tokens == file.value && r.value.token == file.value.access
    ensures r.Ok? && r.value.refreshed ==>
      grant.Ok? && r.value.tokens == Refreshed(file.value, grant.value, now)
      && r.value.token == grant.value.access
    // Only a needed and failed grant, or a missing credential, is an error.
    ensures r.Err? <==> GetTokens(file).Err? || (NeedsRefresh(file.value, now) && grant.Err?)
    ensures r.Ok? ==> r.value.tokens.refresh != ""
  {
    var t :- GetTokens(file);
    if NeedsRefresh(t, now) then
      var renewed :- RefreshAccessToken(file, grant, now);
      Ok(Session(renewed.access, renewed, true))
    else
      Ok(Session(t.access, t, false))
  }

  /** A refreshed credential is valid from the moment of the refresh until the
      margin before the provider's expiry, and needs refreshing from then on,
      provided the provider returned an access token and a lifetime over 60 s. */
  lemma RefreshedValidity(t: Credential, g: Grant, now: int, later: int)
    requires g.access != "" && Lifetime(g) > 60 && now >= 0 && later >= now
    ensures var r := Refreshed(t, g, now);
      NeedsRefresh(r, later) <==> later >= now + Lifetime(g) * 1000 - MarginMs
  {
  }

  /** A second call right after a successful one issues no grant and yields the
      same token, whatever the endpoint would answer. */
  lemma NoSecondRefresh(file: Option<Credential>, now: int, grant: Result<Grant, string>,
                        other: Result<Grant, string>)
    requires GetValidAccessToken(file, now, grant).Ok?
    requires now >= 0
    requires var s := GetValidAccessToken(file, now, grant).value;
      s.token != "" && (s.refreshed ==> Lifetime(grant.value) > 60)
    ensures var s := GetValidAccessToken(file, now, grant).value;
      GetValidAccessToken(Some(s.tokens), now, other) == Ok(Session(s.token, s.tokens, false))
  {
    var s := GetValidAccessToken(file, now, grant).value;
    if s.refreshed {
      RefreshedValidity(file.value, grant.value, now, now);
    }
  }
}

=== FILE: vehicle.dfy ===
/** Vehicle-id resolution of index.mjs: a numeric TESLA_VEHICLE_TAG is used as it
    is; any other tag is looked up in the account's vehicle list, by VIN (case
    insensitively) or by id. The list request's answer is an input. */
module Vehicle {
  import opened Wrappers
  import opened Text

  /** `isNumeric`: after trimming, one or more ASCII digits. */
  predicate IsNumeric(tag: string) {
    AllDigits(Trim(tag))
  }

  /** A run of digits padded with white space is numeric. */
  lemma NumericPadded(pre: string, d: string, post: string)
    requires AllDigits(d)
    requires forall i | 0 <= i < |pre| :: IsSpace(pre[i])
    requires forall i | 0 <= i < |post| :: IsSpace(post[i])
    ensures IsNumeric(pre + d + post)
  {
    DigitNotSpace(d[0]);
    DigitNotSpace(d[|d| - 1]);
    TrimPadding(pre, d, post);
  }

  /** A numeric tag holds at least one digit and nothing but digits and
      white space. */
  lemma NumericCharacters(tag: string)
    requires IsNumeric(tag)
    ensures forall i | 0 <= i < |tag| :: IsDigit(tag[i]) || IsSpace(tag[i])
    ensures exists i | 0 <= i < |tag| :: IsDigit(tag[i])
  {
    TrimInfix(tag);
    var k := |tag| - |TrimStart(tag)|;
    var t := Trim(tag);
    forall i | 0 <= i < |tag| ensures IsDigit(tag[i]) || IsSpace(tag[i]) {
      if k <= i < k + |t| {
        assert tag[i] == t[i - k];
      }
    }
    assert tag[k] == t[0];
  }

  /** One entry of the `/vehicles` answer. Fields are already stringified, with
      "" standing for a missing (or falsy) field. */
  datatype VehicleRec = VehicleRec(vin: string, id: string, vehicleId: string)

  /** `v.id || v.vehicle_id || ""`, the id the tag is compared with. */
  function IdText(v: VehicleRec): string {
    if v.id != "" then v.id else v.vehicleId
  }

  /** `String(v.id || v.vehicle_id)`, the id handed back. A field given as ""
      is absent (or falsy), so with neither id present the result is what
      JavaScript makes of an absent `vehicle_id`: "undefined". */
  function ReturnedId(v: VehicleRec): string {
    if IdText(v) != "" then IdText(v) else "undefined"
  }

  /** The predicate given to `vehicles.find`. The VIN is compared with the
      trimmed, upper-cased tag; the trimmed id with the tag as written. */
  predicate Matches(v: VehicleRec, tag: string) {
    Upper(v.vin) == Upper(Trim(tag)) || Trim(IdText(v)) == tag
  }

  /** `vehicles.find(test)` from position `from` on: the first entry that
      passes. */
  function FindFrom(vs: seq<VehicleRec>, test: VehicleRec -> bool, from: nat): (r: Option<nat>)
    requires from <= |vs|
    ensures r.Some? ==> from <= r.value < |vs| && test(vs[r.value])
    ensures r.Some? ==> forall j | from <= j < r.value :: !test(vs[j])
    ensures r.None? ==> forall j | from <= j < |vs| :: !test(vs[j])
    decreases |vs| - from
  {
    if from == |vs| then None
    else if test(vs[from]) then Some(from)
    else FindFrom(vs, test, from + 1)
  }

  /** `vehicles.map(v => v.vin).filter(Boolean)`: the VINs listed in the error. */
  function KnownVins(vs: seq<VehicleRec>): (r: seq<string>)
    ensures |r| <= |vs|
    ensures forall i | 0 <= i < |r| :: r[i] != ""
    ensures forall i | 0 <= i < |vs| :: vs[i].vin != "" ==> vs[i].vin in r
    ensures forall x | x in r :: exists i | 0 <= i < |vs| :: vs[i].vin == x
    decreases |vs|
  {
    if |vs| == 0 then []
    else
      var rest := KnownVins(vs[1..]);
      assert forall x | x in rest :: exists i | 0 <= i < |vs| :: vs[i].vin == x by {
        forall x | x in rest ensures exists i | 0 <= i < |vs| :: vs[i].vin == x {
          var j :| 0 <= j < |vs[1..]| && vs[1..][j].vin == x;
          assert vs[j + 1].vin == x;
        }
      }
      (if vs[0].vin != "" then [vs[0].vin] else []) + rest
  }

  /** The VINs are listed in the order of the entries: those of one list
      followed by another are those of the first, then those of the second. */
  lemma {:induction false} KnownVinsAppend(a: seq<VehicleRec>, b: seq<VehicleRec>)
    ensures KnownVins(a + b) == KnownVins(a) + KnownVins(b)
    decreases |a|
  {
    if |a| == 0 {
      assert a + b == b;
    } else {
      assert (a + b)[1..] == a[1..] + b;
      KnownVinsAppend(a[1..], b);
    }
  }

  datatype ResolveError =
    | ListFailed(message: string)   // the list request itself failed
    | NoVehicles                    // the account lists no vehicle
    | NotFound(vins: seq<string>)   // no entry matches the tag

  /** The message each error carries, which `main` inspects. */
  function Message(e: ResolveError): string {
    match e
    case ListFailed(m) => m
    case NoVehicles => "Nessun veicolo trovato sull'account."
    case NotFound(vins) => "Veicolo non trovato. VIN disponibili: " + Join(vins, ", ")
  }

  /** The position of the first entry matching the tag. */
  function FirstMatch(vs: seq<VehicleRec>, tag: string): (r: Option<nat>)
    ensures r.Some? ==> r.value < |vs| && Matches(vs[r.value], tag)
    ensures r.Some? ==> forall j | 0 <= j < r.value :: !Matches(vs[j], tag)
    ensures r.None? ==> forall j | 0 <= j < |vs| :: !Matches(vs[j], tag)
  {
    FindFrom(vs, v => Matches(v, tag), 0)
  }

  /** `resolveVehicleId`. The list is requested only for a non-numeric tag;
      a list answer that is not an array is given as the empty list. */
  function Resolve(tag: string, list: Result<seq<VehicleRec>, string>): (r: Result<string, ResolveError>)
    // A numeric tag is returned untouched, whatever the list would say.
    ensures IsNumeric(tag) ==> r == Ok(tag)
    ensures !IsNumeric(tag) && list.Err? ==> r == Err(ListFailed(list.error))
    ensures !IsNumeric(tag) && list.Ok? && |list.value| == 0 ==> r == Err(NoVehicles)
    // Otherwise the id of the first matching entry, if there is one ...
    ensures !IsNumeric(tag) && r.Ok? ==>
      && list.Ok? && FirstMatch(list.value, tag).Some?
      && r.value == ReturnedId(list.value[FirstMatch(list.value, tag).value])
    // ... and the known VINs when there is none.
    ensures !IsNumeric(tag) && list.Ok? && |list.value| > 0 && FirstMatch(list.value, tag).None? ==>
      r == Err(NotFound(KnownVins(list.value)))
    ensures r.Err? && r.error.NotFound? ==> list.Ok? && r.error.vins == KnownVins(list.value)
  {
    if IsNumeric(tag) then Ok(tag)
    else match list
      case Err(m) => Err(ListFailed(m))
      case Ok(vs) =>
        if |vs| == 0 then Err(NoVehicles)
        else match FirstMatch(vs, tag)
          case None => Err(NotFound(KnownVins(vs)))
          case Some(i) => Ok(ReturnedId(vs[i]))
  }

  /** For a tag that is not numeric and a non-empty list, the lookup succeeds
      exactly when some entry matches, and then yields the id of the first
      entry that does. */
  lemma ResolvePicksFirst(tag: string, vs: seq<VehicleRec>)
    requires !IsNumeric(tag) && |vs| > 0
    ensures Resolve(tag, Ok(vs)).Ok? <==> exists i | 0 <= i < |vs| :: Matches(vs[i], tag)
    ensures Resolve(tag, Ok(vs)).Ok? ==> exists i | 0 <= i < |vs| ::
      && Matches(vs[i], tag)
      && (forall j | 0 <= j < i :: !Matches(vs[j], tag))
      && Resolve(tag, Ok(vs)).value == ReturnedId(vs[i])
  {
    var m := FirstMatch(vs, tag);
    if m.Some? {
      assert Matches(vs[m.value], tag);
    }
  }
}

=== FILE: wake.dfy ===
/** The vehicle-data reads of index.mjs and `wakeVehicle`: a best-effort wake
    request followed by a bounded series of reads, where an "asleep"-class
    error moves on to the next attempt and any other error ends the series.
    Reads are answered from an oracle sequence. */
module Wake {
  import opened Wrappers
  import opened Text

  /** The fields of a `vehicle_data` answer the log entry is built from. Text
      fields are "" when missing; `batteryLevel` is `None` when the reading is
      missing or not a finite number. */
  datatype Snapshot = Snapshot(batteryLevel: Option<int>, chargingState: string,
                               state: string, vehicleState: string)

  /** One read: the snapshot, or the error text `main` and `wakeVehicle`
      inspect (the API's `error` field, else the exception's message). */
  type Read = Result<Snapshot, string>

  /** The message of a request that never answers (the 30 s client timeout). */
  const TimeoutText: string := "timeout of 30000ms exceeded"

  /** The `i`-th answer of an oracle; a request the oracle does not cover
      times out. */
  function At<T>(oracle: seq<Result<T, string>>, i: nat): (r: Result<T, string>)
    ensures i < |oracle| ==> r == oracle[i]
    ensures i >= |oracle| ==> r == Err(TimeoutText)
  {
    if i < |oracle| then oracle[i] else Err(TimeoutText)
  }

  /** The oracle as seen after `n` reads have been made. */
  function Drop(oracle: seq<Read>, n: nat): (r: seq<Read>)
    ensures forall i: nat :: At(r, i) == At(oracle, n + i)
  {
    if n <= |oracle| then oracle[n..] else []
  }

  /** The error texts that mean "the vehicle is asleep", matched case-insensitively. */
  predicate Unavailable(text: string) {
    var t := Lower(text);
    Contains(t, "vehicle unavailable") || Contains(t, "asleep") || Contains(t, "offline")
  }

  /** The classification ignores letter case. */
  lemma UnavailableIgnoresCase(a: string, b: string)
    requires Lower(a) == Lower(b)
    ensures Unavailable(a) <==> Unavailable(b)
  {
  }

  /** A message that quotes an "asleep" error, whatever surrounds it, is
      itself an "asleep" error. */
  lemma UnavailableQuoted(pre: string, text: string, post: string)
    requires Unavailable(text)
    ensures Unavailable(pre + text + post)
  {
    LowerAppend(pre + text, post);
    LowerAppend(pre, text);
    var t := Lower(text);
    if Contains(t, "vehicle unavailable") {
      ContainsInfix(Lower(pre), t, Lower(post), "vehicle unavailable");
    } else if Contains(t, "asleep") {
      ContainsInfix(Lower(pre), t, Lower(post), "asleep");
    } else {
      ContainsInfix(Lower(pre), t, Lower(post), "offline");
    }
  }

  /** Reads made after the wake request before the final one-shot read. */
  const PolledReads: nat := 6

  /** The polling loop from attempt `i` on: the read that ended it and how many
      reads (counted from attempt 0) were made. */
  function Poll(oracle: seq<Read>, i: nat): (r: (Read, nat))
    requires i <= PolledReads
    ensures i < r.1 <= PolledReads + 1
    ensures r.0 == At(oracle, r.1 - 1)
    ensures forall j | i <= j < r.1 - 1 :: At(oracle, j).Err? && Unavailable(At(oracle, j).error)
    ensures r.1 <= PolledReads && r.0.Err? ==> !Unavailable(r.0.error)
    decreases PolledReads - i
  {
    if i == PolledReads then (At(oracle, i), i + 1)
    else match At(oracle, i)
      case Ok(v) => (Ok(v), i + 1)
      case Err(e) => if Unavailable(e) then Poll(oracle, i + 1) else (Err(e), i + 1)
  }

  /** What `wakeVehicle` did: the warning its wake request logged (if any), the
      value it returned (`Ok`) or threw (`Err`), and how many reads it made. */
  datatype Waking = Waking(warning: Option<string>, result: Read, attempts: nat)

  /** `wakeVehicle`: `post` is the wake request's answer, `oracle` answers the
      reads that follow it. */
  function WakeVehicle(post: Result<(), string>, oracle: seq<Read>): (w: Waking)
    // A failed wake request is only a warning.
    ensures w.warning == if post.Err? then Some(post.error) else None
    // Between one and six polled reads plus the final one.
    ensures 1 <= w.attempts <= PolledReads + 1
    // The outcome is that of the last read made ...
    ensures w.result == At(oracle, w.attempts - 1)
    // ... every earlier read reported the vehicle asleep ...
    ensures forall j | 0 <= j < w.attempts - 1 :: At(oracle, j).Err? && Unavailable(At(oracle, j).error)
    // ... and a polled read ends the series only by succeeding or by another error.
    ensures w.attempts <= PolledReads && w.result.Err? ==> !Unavailable(w.result.error)
  {
    var (result, n) := Poll(oracle, 0);
    Waking(if post.Err? then Some(post.error) else None, result, n)
  }

  /** The first read that is not an "asleep" error ends the series and is its
      result, provided it comes within the seven reads. */
  lemma FirstAwakeReadWins(post: Result<(), string>, oracle: seq<Read>, k: nat)
    requires k <= PolledReads
    requires forall j | 0 <= j < k :: At(oracle, j).Err? && Unavailable(At(oracle, j).error)
    requires At(oracle, k).Ok? || !Unavailable(At(oracle, k).error)
    ensures WakeVehicle(post, oracle).attempts == k + 1
    ensures WakeVehicle(post, oracle).result == At(oracle, k)
  {
  }

  /** When the vehicle stays asleep through the six polled reads, the final
      one-shot read is made and its outcome, error or not, is the result. */
  lemma AsleepThroughout(post: Result<(), string>, oracle: seq<Read>)
    requires forall j | 0 <= j < PolledReads :: At(oracle, j).Err? && Unavailable(At(oracle, j).error)
    ensures WakeVehicle(post, oracle).attempts == PolledReads + 1
    ensures WakeVehicle(post, oracle).result == At(oracle, PolledReads)
  {
  }

  /** `k` "asleep" answers, then a reading: the series stops at that reading. */
  lemma AwakeAfterAsleep(post: Result<(), string>, oracle: seq<Read>, asleep: string, k: nat, v: Snapshot)
    requires Unavailable(asleep) && k <= PolledReads
    requires |oracle| > k && oracle[k] == Ok(v) && forall i | 0 <= i < k :: oracle[i] == Err(asleep)
    ensures WakeVehicle(post, oracle).attempts == k + 1
    ensures WakeVehicle(post, oracle).result == Ok(v)
  {
    FirstAwakeReadWins(post, oracle, k);
  }

  /** Seven "asleep" answers in a row: all seven reads are made and the last
      answer is the result. */
  lemma AsleepSeries(post: Result<(), string>, oracle: seq<Read>, asleep: string)
    requires Unavailable(asleep)
    requires |oracle| >= PolledReads + 1 && forall i | 0 <= i <= PolledReads :: oracle[i] == Err(asleep)
    ensures WakeVehicle(post, oracle).attempts == PolledReads + 1
    ensures WakeVehicle(post, oracle).result == Err(asleep)
  {
    AsleepThroughout(post, oracle);
  }

  /** The wake request's answer never changes what the reads yield. */
  lemma PostNeverAborts(p: Result<(), string>, q: Result<(), string>, oracle: seq<Read>)
    ensures WakeVehicle(p, oracle).result == WakeVehicle(q, oracle).result
    ensures WakeVehicle(p, oracle).attempts == WakeVehicle(q, oracle).attempts
  {
  }
}

=== FILE: wake_counter.dfy ===
/** The daily wake counter of index.mjs: a `{date, count}` record kept in a file,
    reset to `{today, 0}` whenever its date is not today, and bumped by one after
    a wake. "Today" is an opaque date string supplied by the caller. */
module WakeCounter {
  import opened Wrappers

  datatype Counter = Counter(date: string, count: int)

  /** What reading the file falls back to when it is missing or unreadable. */
  const Fallback: Counter := Counter("", 0)

  function Stored(file: Option<Counter>): Counter {
    file.GetOr(Fallback)
  }

  /** Whether `getWakeState` rewrites the file: the stored date is not today. */
  predicate Stale(file: Option<Counter>, today: string) {
    Stored(file).date != today
  }

  /** `getWakeState`: the counter as it stands for today. */
  function GetWakeState(file: Option<Counter>, today: string): (r: Counter)
    ensures r.date == today
    ensures r.count == if Stale(file, today) then 0 else Stored(file).count
  {
    var obj := Stored(file);
    if obj.date != today then Counter(today, 0) else obj
  }

  /** The file after `getWakeState`: rewritten with the reset only when stale. */
  function FileAfterLoad(file: Option<Counter>, today: string): (f: Option<Counter>)
    ensures Stale(file, today) ==> f == Some(Counter(today, 0))
    ensures !Stale(file, today) ==> f == file
  {
    if Stale(file, today) then Some(GetWakeState(file, today)) else file
  }

  /** `incWake`: the record written back, one more than today's count. */
  function IncWake(file: Option<Counter>, today: string): (r: Counter)
    ensures r.date == today
    ensures r.count == GetWakeState(file, today).count + 1
  {
    var s := GetWakeState(file, today);
    Counter(s.date, s.count + 1)
  }

  /** Loading is idempotent: loading the file a load left behind sees the same
      counter and writes nothing more. */
  lemma LoadIdempotent(file: Option<Counter>, today: string)
    ensures GetWakeState(FileAfterLoad(file, today), today) == GetWakeState(file, today)
    ensures !Stale(FileAfterLoad(file, today), today)
    ensures FileAfterLoad(FileAfterLoad(file, today), today) == FileAfterLoad(file, today)
  {
  }

  /** Loading first (the budget check) and then incrementing (which loads again)
      is the same as incrementing straight away. */
  lemma IncAfterLoad(file: Option<Counter>, today: string)
    ensures IncWake(FileAfterLoad(file, today), today) == IncWake(file, today)
  {
    LoadIdempotent(file, today);
  }

  /** A counter written on another day starts from zero, however high it was:
      the first wake of a new day counts 1. */
  lemma NewDayResets(c: Counter, today: string)
    requires c.date != today
    ensures GetWakeState(Some(c), today) == Counter(today, 0)
    ensures IncWake(Some(c), today) == Counter(today, 1)
  {
  }

  /** The file after `n` wakes on the same day. */
  function AfterWakes(file: Option<Counter>, today: string, n: nat): Option<Counter>
    decreases n
  {
    if n == 0 then file else Some(IncWake(AfterWakes(file, today, n - 1), today))
  }

  /** `n` wakes on one day raise today's count by exactly `n`. */
  lemma {:induction false} WakesAddUp(file: Option<Counter>, today: string, n: nat)
    ensures GetWakeState(AfterWakes(file, today, n), today).count
         == GetWakeState(file, today).count + n
    decreases n
  {
    if n > 0 {
      WakesAddUp(file, today, n - 1);
    }
  }
}

=== FILE: wrappers.dfy ===
/** Option and Result, the two failure-carrying shapes the model uses in place of
    JavaScript's `null`/`undefined` returns and thrown exceptions. */
module Wrappers {

  datatype Option<+T> = None | Some(value: T) {

    /** The wrapped value, or `default` when there is none (JavaScript's `x ?? default`). */
    function GetOr(default: T): T {
      match this
      case Some(v) => v
      case None => default
    }
  }

  /** `Ok` is a normal return, `Err` a thrown (or rejected) error. */
  datatype Result<+R, +E> = Ok(value: R) | Err(error: E) {

    predicate IsFailure() {
      Err?
    }

    function PropagateFailure<U>(): Result<U, E>
      requires Err?
    {
      Err(error)
    }

    function Extract(): R
      requires Ok?
    {
      value
    }
  }
}
